=== FILE: README.md ===
# anybody-home state chart engine, modelled in Dafny

This project models the hierarchical state chart engine of anybody-home
(`sce.py`) and the presence chart that runs on it (`anybody_home.py`).

- **Chart.** A chart maps each state id to an optional `parent`, an optional
  `defaultChild` and a state class. `check` validates it once, when the engine
  is constructed.
- **Engine.** The engine keeps a stack of active states, outermost first, and a
  lazily filled cache of state objects.
  - `init` and `_set_state` enter a state and drill down through default
    children.
  - `iterate` works one stack level at a time. It runs `steady` on its level,
    then runs the nested level once for each index above it, then honours the
    level's own transition request: it exits the states from the top down to
    its level and enters the target. A target whose ordinal value is 0
    terminates the machine instead.
- **Presence chart.** It has three flat states: MAYBE (value 0), AWAY and HOME.
  They poll the monitored devices and keep a roll call and an
  "anybody home" summary.
- **Demonstration chart.** This is `sce.py`'s own chart (Sitting, Walking,
  Running, and ChewingGum and Whistling below Walking). It serves as a
  two-level instance.

## How the model is built

- The engine is an immutable record: the chart, the stack, the cached objects'
  private fields, a log of constructor calls (`built`) and a log of hook calls
  (`trace`: `Entry`, `Steady` with its request, and `Exit`).
- Every engine operation is a pure function that returns either the new record
  or the exception the source would raise (`KeyError`, `IndexError`, the hook
  raising on missing data, or Python's recursion limit).
- A state class is a record of pure hooks over the object's private fields and
  the shared data: `create`, `entry`, `bareEntry`, `tick`, `transitions` and
  `exit`.
  - `bareEntry` is `entry` called with no data, as `init` calls it.
  - `steady` is `tick` followed by `transitioning`, which is the shape of every
    state class in the source.
- `fuel` stands for the Python call depth that remains. A consistent chart can
  still have a default-child cycle, and the source would recurse on it until
  the recursion limit.
- `iterate` is split into three mutually recursive functions:
  - `IterateLevel` fetches the object and runs `steady`;
  - `Nested` is the nested loop;
  - `AfterSteady` runs the nested loop and then honours the level's request.
- `EngineSuccess` states when entering a state and honouring a request return normally.
- `EngineRuns` and `NestedRequests` hold lemmas about whole `iterate` runs: one
  level at a time, requests at two levels of one call, and termination flags
  passed between nested calls.
- A Python `Enum` member is truthy whatever its value. So "a request was made"
  is `Some`, and termination is tested on `value == 0`.

What `iterate` in `sce.py` does, stated plainly:

- The nested call at a level runs once for each index above it. On a stack
  three deep the innermost state therefore gets two `steady` calls per
  `iterate`.
- Each nested call overwrites the termination flag, so only the last nested
  call's flag counts: a termination reported by an earlier nested call is lost
  when a later one reports none.
- A nested request is honoured first. The outer level's own request, computed
  before the nested calls, is honoured after it unless the last nested call
  reported termination.
- A request exits the states from the top down to the requesting level only;
  the levels below it stay active. The exit hooks run innermost first, each on
  its own object and on the data the previous one handed on.
- The number of nested calls is fixed before the first one. When a nested call
  exits states below the level it was called for, the next nested call asks
  for a level past the top of the stack and raises `IndexError`.
- A transition to a state that is not a sibling can leave the stack
  inconsistent with the `parent` links. The engine does not check this, and
  the model makes no claim about it.

## Model

| member | source | states |
|---|---|---|
| FiniteState.Transitioning | sce.py:90-100 | no target exactly when no row's check holds; otherwise the target is that of the first row, in list order, whose check holds |
| FiniteState.TransitioningPicksFirst | sce.py:97-99 | when row `i` is the first whose check holds, the result is row `i`'s target |
| FiniteState.EarlierRowWins | sce.py:97-100 | priority order: if row `i` fires, the chosen target comes from a row at or before `i`, never a later one |
| StateChart.Check | sce.py:130-152 | passes exactly when every parent exists and every default child exists and names its referrer as parent. A dangling parent is reported first, as the first such state in dict order, with that parent. Otherwise the first faulty default child in dict order is reported. A default child with no `parent` key gives a `KeyError`, not `InconsistentStateChart` |
| StateChartEngine.NewEngine | sce.py:121-128 | construction succeeds exactly when the chart is consistent, otherwise fails with `check`'s verdict; the new engine is valid, with an empty stack, cache and logs |
| StateChartEngine.StateInstance | sce.py:165-175 | an unknown id raises `KeyError`; a cached id returns its object and changes nothing; otherwise the class's constructor builds the object, which is cached and logged once; the stack and hook log are untouched and validity is kept |
| EngineRuns.StateInstanceCached | sce.py:172-175 | a second reference returns the identical object and constructs nothing more; the first constructs at most once |
| StateChartEngine.SetState | sce.py:177-190 | on success the stack is the old one followed by the drill-down chain from the state through its default children, and the hook log grows by one `entry` per pushed state, outer to inner; data given stays given, validity is kept, and at most `fuel` states are pushed. With no call depth left it fails with the recursion limit; otherwise an unknown state raises `KeyError` naming it, and any `KeyError` names a state missing from the chart |
| StateChartEngine.Init | sce.py:192-200 | the same drill-down and entry order as `_set_state`, with no data passed; with call depth left, an unknown state raises `KeyError` naming it |
| EngineSuccess.SetStateSucceeds | sce.py:177-190 | `_set_state` returns normally when the state and every default child below it are in the chart, the chain ends within the call depth left, and every child's `entry` accepts being called without data (as must the state itself when no data is given) |
| EngineSuccess.InitSucceeds | sce.py:192-200 | `init` returns normally under the same conditions, the state itself being entered without data |
| EngineRuns.EnterLeaf | sce.py:184-188 | entering a state without a default child, with data: its `entry` runs once on the cached or new object, the id is pushed, and nothing else is entered |
| EngineRuns.InitLeaf | sce.py:184-199 | entering such a state with no data: the bare `entry` runs and the id is pushed; if that hook raises, `init` raises |
| EngineRuns.EnterWithLeafChild | sce.py:184-189 | entering a state with data whose default child has none of its own: the state's `entry` with data and its push, then the child's `entry` without data and its push; the child's hook raising fails the whole call |
| StateChartEngine.ExitFrom | sce.py:241-245 | on a valid engine the exit loop succeeds; the stack is cut back to `level`, and one `exit` is logged per popped state, innermost first; nothing happens at or above the top |
| EngineRuns.ExitTop | sce.py:242-245 | exiting from the top index calls only the top state's `exit` and pops it |
| StateChartEngine.ExitFromHooks | sce.py:241-245 | the exit loop runs each popped state's `exit` on that state's own cached object, innermost first, each on the data the previous hook handed on: the objects and the data afterwards are exactly those of these hooks applied in that order, and no object is constructed |
| StateChartEngine.ExitHooksFrame | sce.py:241-245 | the exit hooks add no object to the cache and leave the object of every state that is not exited as it was |
| EngineRuns.ExitExact | sce.py:241-245 | on a valid engine the exit loop's whole result: the objects and data its hooks leave, the stack cut back to `level`, one `exit` logged per popped state, innermost first, and nothing else changed |
| EngineRuns.ExitTwo | sce.py:241-245 | exiting the top two states: the top one's `exit` runs on its object, then the one below runs on its own object with the data the first handed on; both are popped, and their exits are logged in that order |
| EngineRuns.ApplyTerminates | sce.py:240-247 | a value-0 request at an active level on a valid engine returns the exit loop's result, with the objects and data its hooks left, and reports termination |
| EngineRuns.ApplyEnters | sce.py:240-249 | a request for any other target returns the result of `_set_state` for the target, run on the engine the exit loop left and with the data its last hook handed on; a failure there is the request's failure, and success goes on |
| StateChartEngine.ApplyRequest | sce.py:240-249 | honouring a request at `level` terminates exactly when the target's value is 0. Then the states from `level` up have exited innermost-first and nothing was entered. Otherwise the stack is the part below `level` followed by the target's drill-down chain, and the hook log gains the exits followed by the entries. No `steady` is logged, and the levels below `level` are untouched. On a valid engine a value-0 target always returns normally; with call depth left, an unknown nonzero target raises `KeyError` naming it |
| EngineSuccess.ApplySucceeds | sce.py:240-249 | on a valid engine, honouring a request at an active level returns normally when the target's value is 0, or when the target's drill-down can be entered as `_set_state` needs |
| EngineRuns.ApplyTerminal | sce.py:246-247 | a target of value 0 exits from `level` up and terminates, entering nothing |
| StateChartEngine.IterateLevel | sce.py:226-250 | an index past the top raises `IndexError`, including when an earlier nested call has shortened the stack. On success the first hook call logged is `steady` on `stack[level]`, before any deeper level, at least one `steady` is logged, and the stack below `level` is kept. When that first `steady` requested a target, a value-0 target means termination is reported; a result that goes on means the target's value is nonzero and the stack is the part below `level` followed by the target's drill-down chain, whatever the nested calls did before. When no `steady` requested anything, the stack is unchanged, the result is "continue", and only `steady` calls were logged. When the stack holds one or two states from `level` up, each of them gets exactly one `steady`, outer first. Validity is kept. On a valid engine whose states from `level` up are in the chart and never request a transition, whatever their fields and data, with call depth at least the number of those states, the call returns normally, keeps the stack and goes on |
| StateChartEngine.AfterSteady | sce.py:238-249 | after the level's `steady`: the nested calls followed by the request. When the level requested a value-0 target, termination is reported. When it requested a target and the result goes on, the target's value is nonzero and the level's request was honoured last: the stack is the part below `level` followed by the target's drill-down chain. With no request anywhere the stack is unchanged and the result is "continue". With nothing above `level` no `steady` runs; with one state above it, that state gets exactly one. Without a request of its own, on a valid engine whose states above `level` never request anything and with call depth for each of them, it returns normally, keeps the stack and goes on |
| StateChartEngine.Nested | sce.py:238-239 | the nested loop of `count` calls, each on the engine the previous one left: on success all `count` calls ran, so at least `count` `steady` calls are logged after the incoming log. With no call it returns the engine, data and incoming flag unchanged; it keeps the stack below `level`; a single call on a one-state stack from `level` up logs exactly one `steady`; with no request anywhere the stack is unchanged and termination is reported only when no call ran and the incoming flag was set. On a valid engine whose states from `level` up never request anything, with call depth for each of them, it returns normally, keeps the stack and reports termination only when no call ran and the incoming flag was set |
| EngineRuns.SingleLevelIterate | sce.py:234-249 | with one active state, `iterate` runs its `steady`; no request leaves the stack as it was, and a request is honoured at once at level 0 |
| EngineRuns.AfterSteadyLeaf | sce.py:238-240 | at the innermost level there is no nested call, and the level's own request is honoured at once |
| EngineRuns.TopTerminates | sce.py:240-247 | the innermost state of a two-deep stack requesting a value-0 target exits, the stack shrinks to the outer state, and termination is reported |
| EngineRuns.NestedTerminatedSkipsRequest | sce.py:238-240 | once the nested calls report termination, the level's own request is not honoured, whatever it is |
| EngineRuns.NestedTerminationWins | sce.py:234-250 | on a two-deep stack whose inner state requests a value-0 target, the call logs outer `steady`, inner `steady` and inner `exit`, in that order, then reports termination with only the outer state active. The outer state's own request is dropped |
| EngineRuns.SilentDepthThree | sce.py:238-239 | on a three-deep stack with no request anywhere, the nested call runs twice, so the `steady` calls are outer, middle, inner, middle, inner; the stack is unchanged and the result is "continue" |
| NestedRequests.RequestLeaf | sce.py:240-249 | a request at `level` for a state without a default child and of nonzero value: the states from `level` up exit innermost-first, the target alone is entered and pushed, and the call goes on |
| NestedRequests.NestedThenRequest | sce.py:238-249 | when the nested calls return without reporting termination, the level's own request is honoured on the engine they left |
| NestedRequests.LeafSilent | sce.py:234-240 | at the innermost level, a `steady` that requests nothing: only that `steady` is logged, the stack is unchanged and the call goes on |
| NestedRequests.LeafTerminates | sce.py:240-247 | at the innermost level, a `steady` that requests a value-0 target: that state exits, nothing is entered, and termination is reported |
| NestedRequests.LeafRequest | sce.py:240-249 | at the innermost level, a request for a state without a default child and of nonzero value: the requesting state exits and the target alone is entered in its place |
| NestedRequests.InnerThenOuterRequest | sce.py:234-250 | on a two-deep stack of two different states, where the outer state's `steady` requests `t0` and the inner state's `steady`, run on the data the outer one left, requests `t1`, both targets without default child and of nonzero value: the hook log gains outer `steady`, inner `steady`, inner `exit`, `t1` `entry`, `t1` `exit`, outer `exit`, `t0` `entry`, in that order, and `t0` alone stays active; the call goes on |
| NestedRequests.TerminationOverwritten | sce.py:237-240 | on a three-deep stack where only the innermost state requests a value-0 target, the first nested call exits it and reports termination, the second runs the middle state again and reports none, so the call goes on with the two outer states active; the `steady` log is outer, middle, inner, then inner `exit`, then middle again |
| NestedRequests.MiddleTerminationRaises | sce.py:235-245 | on a three-deep stack whose middle state requests a value-0 target and whose innermost state requests nothing, the two calls of `iterate` at level 1 that the loop at level 0 fixed at its start do not both run: the first exits both states, and the second raises `IndexError` for level 1 |
| NestedRequests.OuterRaises | sce.py:234-245 | on the same stack, the outer `iterate` call raises that `IndexError`, whatever the outer state requests |
| AnybodyHome.PollFrom | anybody_home.py:94-98 | the ping loop records each device's ping result under its name, keeps entries for other names, and sets the flag exactly when the flag was set or some device answered |
| AnybodyHome.Poll | anybody_home.py:90-101 | `poll` builds a fresh roll call with one entry per monitored device holding its ping result, and `anybody_home` holds exactly when some device answered |
| AnybodyHome.AppChartPasses | anybody_home.py:223-226 | the three flat states have no parent or default child, so the chart passes `check` and the engine can be constructed |
| AnybodyHome.MaybeRequestsHome | anybody_home.py:113-134 | MAYBE checks HOME before AWAY and both checks always pass, so its `steady` always requests HOME and changes nothing |
| AnybodyHome.AwayRequestsHome | anybody_home.py:146-168 | AWAY checks HOME before MAYBE and both checks always pass, so its `steady` always requests HOME and changes nothing |
| AnybodyHome.HomeSteady | anybody_home.py:180-199 | HOME's `steady` checks its poll handle, which counts the check and replaces the roll call and summary with a fresh poll when due. It then requests MAYBE exactly when `anybody_home` holds, and nothing otherwise |
| AnybodyHome.HomeIterate | anybody_home.py:191-199 | with HOME the only active state, one `iterate` (sce.py:234-249) terminates exactly when `anybody_home` holds after HOME's tick. HOME then exits, MAYBE is not entered and the stack is empty. Otherwise HOME stays and only its `steady` is logged |
| AnybodyHome.StartRun | anybody_home.py:237 | `init(MAYBE)` on a fresh engine succeeds although it passes no data: MAYBE alone is active with a poll handle of the maybe period installed |
| AnybodyHome.MaybeExits | anybody_home.py:86-88 | MAYBE's `exit` deletes its poll handle, leaves the data alone and pops MAYBE |
| AnybodyHome.HomeEnters | anybody_home.py:184-189 | entering HOME with data sets `anybody_home`, installs a handle with the positive period, constructs HOME and pushes it |
| AnybodyHome.AwayEnters | anybody_home.py:151-156 | entering AWAY with data on any engine over the presence chart clears `anybody_home`, installs a handle with the negative period in AWAY's object, pushes AWAY and logs its entry; the rest of the engine is untouched |
| AnybodyHome.AppExit | anybody_home.py:86-88 | each of MAYBE, AWAY and HOME, alone on the stack, exits by deleting its poll handle: the data is untouched, the stack empties and the exit is logged |
| AnybodyHome.EnteringWithoutData | anybody_home.py:151-189 | `init` of AWAY or HOME raises, because their `entry` writes `anybody_home` into the data that `init` does not pass |
| AnybodyHome.FirstIterate | anybody_home.py:237-241 | after `init(MAYBE)`, the first `iterate` leaves exactly HOME active with `anybody_home` true and does not terminate |
| AnybodyHome.SecondIterate | anybody_home.py:239-241 | the second `iterate` terminates unless HOME's fresh handle is due and no device answers, in which case HOME stays and `anybody_home` is false |
| Demo.DemoChartPasses | sce.py:500-505 | the demonstration chart passes `check`: both children name Walking as parent, and Walking's default child is ChewingGum |
| Demo.SittingSteady | sce.py:389-406 | after Sitting's tick, Walking is requested when calm, restless and not tired. Failing that, Running is requested when panicked and not tired. Otherwise nothing is requested |
| Demo.ChewingGumSteady | sce.py:322-335 | ChewingGum's `steady` counts and requests Whistling exactly when the new count is at least 5 |
| Demo.WalkingSteady | sce.py:427-439 | Walking's `steady` changes nothing and requests Sitting when calm, not restless and tired; failing that Running when panicked; otherwise nothing |
| Demo.InitSitting | sce.py:384-387 | `init(Sitting)` on a fresh demonstration engine leaves Sitting alone active with its count reset, and constructs only Sitting |
| Demo.WalkingEnters | sce.py:184-189 | entering Walking with the data drills into its default child ChewingGum (the chart at sce.py:500-505), constructing and entering both, outer first |
| Demo.SittingToWalking | sce.py:240-249 | from `init(Sitting)`, one `iterate` with restless, calm, untired data logs Sitting's entry, steady and exit, then Walking's and ChewingGum's entries, and leaves the path [Walking, ChewingGum] |
| Demo.PanicWhileChewing | sce.py:226-250 | with Walking and ChewingGum active, a chew count of 4 and panicked data, one `iterate` logs Walking's `steady` (requesting Running), ChewingGum's `steady` (requesting Whistling), ChewingGum's `exit`, Whistling's `entry`, Whistling's `exit`, Walking's `exit` and Running's `entry`, and leaves Running alone active without terminating |

## Left out

- `Pinger`, `arg_parser`, `run_state_machine` and `main` in anybody_home.py are left out: they do OS `ping` or pyping calls, Redis writes and `time.sleep`. The pinger is a fixed function from address to answer, held in the evergreen variables.
- `Periodic` is not part of this model. A poll handle is its period plus a count of checks, and whether a check fires `poll` is a clock oracle (`due`) held in the evergreen variables.
- The clock oracle `due` is a fixed function of the handle's period and check count, which is stricter than a real clock: two checks with the same count always agree.
- config.py, notifier.py and tracker.py are not part of this model. They hold configuration parsing, console logging, and a threaded Redis and ping tracker, with no engine logic.
- `diagnostic`, `_notify`, `name` and the `state_names` string formatting are left out because they only log or format. `state()` returns the stack, which is the engine record's `stack` field.
- The random `BitTongueError` in ChewingGum's `steady`, `random_bool` and the `__main__` loop of sce.py are left out because they depend on randomness.
- The constructors' `notifier` and `evergreen_vars` arguments and the `_state_id` attribute are dropped. A constructor is the class's `create`, which gives the initial private fields for an id; `set_transitions` is the class's `transitions` list; the evergreen variables the presence chart reads are a parameter of its classes.
- A fault is returned in place of the new engine, so the objects constructed, hooks run and states popped before the exception are discarded; the Python engine keeps those partial changes.
- `iterate`'s `current_data` defaults to `None`; the model always passes data, as both charts' loops do.
- Python's recursion limit is a `fuel` parameter. Runs that need more depth than the fuel given end in the `RecursionLimit` fault.
- Hook exceptions are left out except one: `entry` raising when `init` passes no data (AWAY and HOME index the data). Every other hook of both charts is total.
- StateChartEngine.StateInstance: it looks the id up in the chart before the cache, whereas the source looks in the chart only on a cache miss. These differ only for an id cached without a chart entry, and no valid engine has one.
- AnybodyHome.HomeTick: it treats a deleted poll handle as "nothing to check". In the source that would raise `AttributeError`, but HOME's `steady` only runs after its `entry` has installed a handle.
- Demo.SittingClass: it starts `sittingCount` at 0 rather than `None`, because `entry` always resets it before `steady` can read it.
- Polling periods are opaque reals because nothing in the core computes with them.
- EngineSuccess.SetStateSucceeds: it gives sufficient conditions for success, not an if-and-only-if. In particular it asks that a child's bare `entry` accept every possible object, not just the one it will get.
- StateChartEngine.IterateLevel: success is promised only for stacks whose states never request a transition. When a request is honoured, success also depends on the target's drill-down, which EngineSuccess.ApplySucceeds covers one request at a time.
- Demo.ChewingGumSteady: the random `BitTongueError` raise before `transitioning` is left out, as listed above.

=== FILE: anybody_home.dfy ===
/**
  The presence chart of anybody-home: three flat states MAYBE, AWAY and HOME
  over application data holding a per-device roll call and an "anybody home"
  summary. MAYBE has ordinal value 0, so a transition to it terminates the
  engine.
 */
module AnybodyHome {
  import opened Common
  import opened FiniteState
  import opened StateChart
  import opened StateChartEngine
  import opened EngineRuns

  const MAYBE := StateId("MAYBE", 0)
  const AWAY := StateId("AWAY", 1)
  const HOME := StateId("HOME", 2)

  /** The shared application data: the last roll call (device name to ping result) and its summary. */
  datatype AppData = AppData(rollCall: map<string, bool>, anybodyHome: bool)

  /** A monitored device: the name it is reported under and the address pinged. */
  datatype Device = Device(name: string, address: string)

  ghost predicate DistinctNames(ds: seq<Device>) {
    forall i, j :: 0 <= i < j < |ds| ==> ds[i].name != ds[j].name
  }

  /** The `monitored_devices` dict of the configuration, in its iteration order. */
  type Devices = ds: seq<Device> | DistinctNames(ds) witness []

  /**
    A `Periodic` poll handle: its period and how many times it has been checked.
    Whether a check fires the callback is up to the clock, outside the model.
   */
  datatype PollHandle = PollHandle(period: real, checks: nat)

  /** The private fields of every state: `poll_check`, `None` before the first entry and after `exit`. */
  datatype Fields = Fields(pollCheck: Option<PollHandle>)

  /**
    The evergreen variables every state is constructed with: the configured
    devices and polling periods, the pinger (an address answers or not), and
    the clock deciding whether a check of a poll handle is due.
   */
  datatype Evergreen = Evergreen(
    devices: Devices,
    ping: string -> bool,
    maybePeriod: real,
    negativePeriod: real,
    positivePeriod: real,
    due: PollHandle -> bool)

  /** Some monitored device answers its ping. */
  ghost predicate AnyAnswers(env: Evergreen) {
    exists j :: 0 <= j < |env.devices| && env.ping(env.devices[j].address)
  }

  /**
    The loop of `poll` from position `i` of `ds` on, with the roll call `rc` and
    the flag `any` built so far: every device is pinged in turn, its result is
    recorded under its name, and any answer sets the flag.
   */
  function PollFrom(ds: seq<Device>, ping: string -> bool, i: nat, rc: map<string, bool>, any: bool): (r: (map<string, bool>, bool))
    requires i <= |ds| && DistinctNames(ds)
    decreases |ds| - i
    ensures r.0.Keys == rc.Keys + (set j | i <= j < |ds| :: ds[j].name)
    ensures forall j :: i <= j < |ds| ==> r.0[ds[j].name] == ping(ds[j].address)
    ensures forall k :: k in rc && (forall j :: i <= j < |ds| ==> ds[j].name != k) ==> r.0[k] == rc[k]
    ensures r.1 <==> any || exists j :: i <= j < |ds| && ping(ds[j].address)
  {
    if i == |ds| then (rc, any)
    else
      var response := ping(ds[i].address);
      var r := PollFrom(ds, ping, i + 1, rc[ds[i].name := response], any || response);
      PollStep(ds, ping, i, rc, any, r);
      r
  }

  /** One turn of the `poll` loop, packaged: what the rest of the loop gives, extended by device `i`. */
  lemma PollStep(ds: seq<Device>, ping: string -> bool, i: nat, rc: map<string, bool>, any: bool, r: (map<string, bool>, bool))
    requires i < |ds| && DistinctNames(ds)
    requires var rc' := rc[ds[i].name := ping(ds[i].address)];
      && r.0.Keys == rc'.Keys + (set j | i + 1 <= j < |ds| :: ds[j].name)
      && (forall j :: i + 1 <= j < |ds| ==> r.0[ds[j].name] == ping(ds[j].address))
      && (forall k :: k in rc' && (forall j :: i + 1 <= j < |ds| ==> ds[j].name != k) ==> r.0[k] == rc'[k])
      && (r.1 <==> (any || ping(ds[i].address)) || exists j :: i + 1 <= j < |ds| && ping(ds[j].address))
    ensures r.0.Keys == rc.Keys + (set j | i <= j < |ds| :: ds[j].name)
    ensures forall j :: i <= j < |ds| ==> r.0[ds[j].name] == ping(ds[j].address)
    ensures forall k :: k in rc && (forall j :: i <= j < |ds| ==> ds[j].name != k) ==> r.0[k] == rc[k]
    ensures r.1 <==> any || exists j :: i <= j < |ds| && ping(ds[j].address)
  {
    var rc' := rc[ds[i].name := ping(ds[i].address)];
    assert (set j | i <= j < |ds| :: ds[j].name) == {ds[i].name} + (set j | i + 1 <= j < |ds| :: ds[j].name);
    assert r.0[ds[i].name] == ping(ds[i].address) by {
      assert forall j :: i + 1 <= j < |ds| ==> ds[j].name != ds[i].name;
    }
  }

  /**
    `poll`: a fresh roll call with one entry per monitored device, its ping
    result, and `anybody_home` true exactly when some device answered; both
    replace what the data held.
   */
  function Poll(env: Evergreen, d: AppData): (r: AppData)
    ensures r.rollCall.Keys == set j | 0 <= j < |env.devices| :: env.devices[j].name
    ensures forall j :: 0 <= j < |env.devices| ==> r.rollCall[env.devices[j].name] == env.ping(env.devices[j].address)
    ensures r.anybodyHome <==> AnyAnswers(env)
  {
    var (rc, any) := PollFrom(env.devices, env.ping, 0, map[], false);
    AppData(rc, any)
  }

  /** A poll handle freshly installed by an `entry`, with the given period. */
  function Installed(period: real): (r: Fields) {
    Fields(Some(PollHandle(period, 0)))
  }

  /** `AnybodyHomeState.__init__` leaves `poll_check` unset and `exit` deletes it. */
  function NoHandle(s: StateId): (r: Fields) {
    Fields(None)
  }

  /** `MaybeState`: installs a poll handle with the maybe period; HOME is checked before AWAY and both always pass. */
  function MaybeClass(env: Evergreen): (r: StateClass<Fields, AppData>) {
    StateClass(
      NoHandle,
      (f: Fields, d: AppData) => (Installed(env.maybePeriod), d),
      (f: Fields) => Some(Installed(env.maybePeriod)),
      (f: Fields, d: AppData) => (f, d),
      [Transition(HOME, (f: Fields, d: AppData) => true), Transition(AWAY, (f: Fields, d: AppData) => true)],
      (f: Fields, d: AppData) => (Fields(None), d))
  }

  /**
    `AwayState`: `entry` clears `anybody_home` (so it raises without data) and
    installs a handle with the negative period; HOME is checked before MAYBE and
    both always pass.
   */
  function AwayClass(env: Evergreen): (r: StateClass<Fields, AppData>) {
    StateClass(
      NoHandle,
      (f: Fields, d: AppData) => (Installed(env.negativePeriod), d.(anybodyHome := false)),
      (f: Fields) => None,
      (f: Fields, d: AppData) => (f, d),
      [Transition(HOME, (f: Fields, d: AppData) => true), Transition(MAYBE, (f: Fields, d: AppData) => true)],
      (f: Fields, d: AppData) => (Fields(None), d))
  }

  /**
    `HomeState.steady` before `transitioning`: check the poll handle, which
    polls the devices when the clock says it is due.
   */
  function HomeTick(env: Evergreen, f: Fields, d: AppData): (r: (Fields, AppData)) {
    if f.pollCheck.None? then (f, d)
    else
      var h := f.pollCheck.value;
      (Fields(Some(h.(checks := h.checks + 1))), if env.due(h) then Poll(env, d) else d)
  }

  /**
    `HomeState`: `entry` sets `anybody_home` (so it raises without data) and
    installs a handle with the positive period; its only row requests MAYBE
    when `anybody_home` holds.
   */
  function HomeClass(env: Evergreen): (r: StateClass<Fields, AppData>) {
    StateClass(
      NoHandle,
      (f: Fields, d: AppData) => (Installed(env.positivePeriod), d.(anybodyHome := true)),
      (f: Fields) => None,
      (f: Fields, d: AppData) => HomeTick(env, f, d),
      [Transition(MAYBE, (f: Fields, d: AppData) => d.anybodyHome)],
      (f: Fields, d: AppData) => (Fields(None), d))
  }

  /** `STATE_CHART`: three top-level states, no parents, no default children. */
  function AppChart(env: Evergreen): (r: Chart<Fields, AppData>) {
    RawChart(
      [MAYBE, AWAY, HOME],
      map[MAYBE := StateInfo(None, None, MaybeClass(env)),
          AWAY := StateInfo(None, None, AwayClass(env)),
          HOME := StateInfo(None, None, HomeClass(env))])
  }

  /** The application chart passes `check`, so constructing the engine succeeds. */
  lemma AppChartPasses(env: Evergreen)
    ensures Check(AppChart(env)) == Passed
    ensures NewEngine(AppChart(env)).Ok?
  {
    var c := AppChart(env);
    assert IsConsistent(c) by {
      forall k | k in c.info ensures !ParentDangles(c, k) && !DefaultFaulty(c, k) {
        assert c.info[k].parent.None? && c.info[k].defaultChild.None?;
      }
    }
  }

  /** MAYBE's `steady` always requests HOME, changing nothing. */
  lemma MaybeRequestsHome(env: Evergreen, f: Fields, d: AppData)
    ensures SteadyCall(MaybeClass(env), f, d) == SteadyResult(Some(HOME), f, d)
  {
    TransitioningPicksFirst(MaybeClass(env).transitions, f, d, 0);
  }

  /** AWAY's `steady` always requests HOME, changing nothing. */
  lemma AwayRequestsHome(env: Evergreen, f: Fields, d: AppData)
    ensures SteadyCall(AwayClass(env), f, d) == SteadyResult(Some(HOME), f, d)
  {
    TransitioningPicksFirst(AwayClass(env).transitions, f, d, 0);
  }

  /**
    HOME's `steady`: checking an installed handle counts the check and, when
    due, replaces the roll call and summary by a fresh poll; then MAYBE is
    requested exactly when `anybody_home` holds, and nothing otherwise.
   */
  lemma HomeSteady(env: Evergreen, f: Fields, d: AppData)
    ensures var st := SteadyCall(HomeClass(env), f, d);
      && st.request == (if st.data.anybodyHome then Some(MAYBE) else None)
      && (f.pollCheck.Some? ==>
            && st.fields == Fields(Some(f.pollCheck.value.(checks := f.pollCheck.value.checks + 1)))
            && st.data == if env.due(f.pollCheck.value) then Poll(env, d) else d)
  {
    var (f1, d1) := HomeTick(env, f, d);
    if d1.anybodyHome {
      TransitioningPicksFirst(HomeClass(env).transitions, f1, d1, 0);
    }
  }

  /** Every engine over the application chart that the operations produce from a fresh one. */
  ghost predicate AppEngine(env: Evergreen, e: Engine<Fields, AppData>) {
    Valid(e) && e.chart == AppChart(env)
  }

  /**
    A request for MAYBE terminates the engine: the requesting state exits and
    MAYBE is not entered. With HOME the only active state, one `iterate`
    terminates exactly when `anybody_home` holds after HOME's own tick, leaving
    the stack empty; otherwise HOME stays and nothing is exited or entered.
   */
  lemma HomeIterate(env: Evergreen, e: Engine<Fields, AppData>, d: AppData, fuel: nat)
    requires AppEngine(env, e) && e.stack == [HOME] && HOME in e.instances && 0 < fuel
    ensures var st := SteadyCall(HomeClass(env), e.instances[HOME], d);
      var r := IterateLevel(e, d, 0, fuel);
      && r.Ok?
      && (r.value.terminate <==> st.data.anybodyHome)
      && r.value.data == st.data
      && (r.value.terminate ==>
            r.value.engine.stack == [] && r.value.engine.trace == e.trace + [Steady(HOME, Some(MAYBE)), Exit(HOME)])
      && (!r.value.terminate ==>
            r.value.engine.stack == [HOME] && r.value.engine.trace == e.trace + [Steady(HOME, None)])
  {
    var st := SteadyCall(HomeClass(env), e.instances[HOME], d);
    HomeSteady(env, e.instances[HOME], d);
    SingleLevelIterate(e, d, fuel);
    var e2 := AfterSteadyAt(e, d, 0);
    if st.data.anybodyHome {
      ExitTop(e2, st.data);
      ApplyTerminal(e2, st.data, 0, MAYBE, fuel - 1);
      TraceTwo(e.trace, Steady(HOME, Some(MAYBE)), Exit(HOME), e2.trace, IterateLevel(e, d, 0, fuel).value.engine.trace);
    }
  }

  /** The engine right after construction and `init(MAYBE)`, as `run_state_machine` starts it. */
  function Started(env: Evergreen): (r: Engine<Fields, AppData>) {
    AppChartPasses(env);
    var c := AppChart(env);
    Engine(c, [MAYBE], map[MAYBE := Installed(env.maybePeriod)], [MAYBE], [Entry(MAYBE)])
  }

  /**
    `init(MAYBE)` on a fresh engine succeeds although it passes no data, since
    MAYBE's `entry` does not read the data: MAYBE alone is active, with a poll
    handle installed.
   */
  lemma StartRun(env: Evergreen, fuel: nat)
    requires 0 < fuel
    ensures NewEngine(AppChart(env)).Ok?
    ensures Init(NewEngine(AppChart(env)).value, MAYBE, fuel) == Ok(Started(env))
    ensures AppEngine(env, Started(env))
  {
    var c := AppChart(env);
    AppChartPasses(env);
    var e0 := NewEngine(c).value;
    assert e0 == Engine(c, [], map[], [], []);
    assert MAYBE in c.info && c.info[MAYBE].defaultChild.None?;
    assert ObjectFor(e0, MAYBE) == Fields(None);
    assert c.info[MAYBE].stateClass.bareEntry(Fields(None)) == Some(Installed(env.maybePeriod));
    InitLeaf(e0, MAYBE, fuel);
    assert e0.instances[MAYBE := Installed(env.maybePeriod)] == map[MAYBE := Installed(env.maybePeriod)];
    assert e0.built + [MAYBE] == [MAYBE] && e0.stack + [MAYBE] == [MAYBE] && e0.trace + [Entry(MAYBE)] == [Entry(MAYBE)];
    assert Init(e0, MAYBE, fuel) == Ok(Started(env));
  }

  /** The engine after MAYBE's first `steady`, which requested HOME. */
  function AfterMaybeSteady(env: Evergreen): (r: Engine<Fields, AppData>) {
    AppChartPasses(env);
    Engine(AppChart(env), [MAYBE], map[MAYBE := Installed(env.maybePeriod)], [MAYBE], [Entry(MAYBE), Steady(MAYBE, Some(HOME))])
  }

  /** The engine after MAYBE has exited. */
  function AfterMaybeExit(env: Evergreen): (r: Engine<Fields, AppData>) {
    AppChartPasses(env);
    Engine(AppChart(env), [], map[MAYBE := Fields(None)], [MAYBE], [Entry(MAYBE), Steady(MAYBE, Some(HOME)), Exit(MAYBE)])
  }

  /** The engine after HOME has been entered. */
  function AfterHomeEntry(env: Evergreen): (r: Engine<Fields, AppData>) {
    AppChartPasses(env);
    Engine(AppChart(env), [HOME], map[MAYBE := Fields(None), HOME := Installed(env.positivePeriod)], [MAYBE, HOME],
      [Entry(MAYBE), Steady(MAYBE, Some(HOME)), Exit(MAYBE), Entry(HOME)])
  }

  /** `Started` is reachable, hence a valid engine over the application chart. */
  lemma StartedValid(env: Evergreen)
    ensures AppEngine(env, Started(env))
  {
    StartRun(env, 1);
  }

  /** MAYBE's first `steady` on the started engine: it requests HOME and leaves its fields alone. */
  lemma MaybeSteadyAt(env: Evergreen, d: AppData)
    requires AppEngine(env, Started(env))
    ensures SteadyAt(Started(env), d, 0) == SteadyResult(Some(HOME), Installed(env.maybePeriod), d)
    ensures AfterSteadyAt(Started(env), d, 0) == AfterMaybeSteady(env)
  {
    var e1 := Started(env);
    MaybeRequestsHome(env, e1.instances[MAYBE], d);
    assert e1.chart.info[MAYBE].stateClass == MaybeClass(env);
    var r := AfterSteadyAt(e1, d, 0);
    var want := AfterMaybeSteady(env);
    assert r.chart == want.chart;
    assert r.stack == want.stack;
    assert r.built == want.built;
    assert r.trace == want.trace;
    assert r.instances == want.instances;
  }

  /** The first half of the first `iterate`: MAYBE's `steady` requests HOME, which is then honoured. */
  lemma MaybeSteps(env: Evergreen, d: AppData, fuel: nat)
    requires 1 < fuel
    ensures AppEngine(env, AfterMaybeSteady(env))
    ensures IterateLevel(Started(env), d, 0, fuel) == ApplyRequest(AfterMaybeSteady(env), d, 0, HOME, fuel - 1)
  {
    StartedValid(env);
    MaybeSteadyAt(env, d);
    SingleLevelIterate(Started(env), d, fuel);
  }

  /** MAYBE exits without touching the data and deleting its handle; the stack empties. */
  lemma MaybeExits(env: Evergreen, d: AppData)
    requires AppEngine(env, AfterMaybeSteady(env))
    ensures ExitFrom(AfterMaybeSteady(env), d, 0) == Ok((AfterMaybeExit(env), d))
  {
    var e2 := AfterMaybeSteady(env);
    ExitTop(e2, d);
    var r := ExitFrom(e2, d, 0).value;
    var want := AfterMaybeExit(env);
    assert r.1 == d;
    assert r.0.chart == want.chart;
    assert r.0.stack == want.stack;
    assert r.0.built == want.built;
    assert r.0.trace == want.trace;
    assert r.0.instances == want.instances;
  }

  /** HOME is entered with the data: `anybody_home` is set and a handle with the positive period installed. */
  lemma HomeEnters(env: Evergreen, d: AppData, fuel: nat)
    requires 0 < fuel
    ensures SetState(AfterMaybeExit(env), HOME, Some(d), fuel) == Ok((AfterHomeEntry(env), Some(d.(anybodyHome := true))))
  {
    var e3 := AfterMaybeExit(env);
    EnterLeaf(e3, HOME, d, fuel);
    var r := SetState(e3, HOME, Some(d), fuel).value;
    var want := AfterHomeEntry(env);
    HomeEntryParts(env);
    assert r.1 == Some(d.(anybodyHome := true));
    assert r.0.chart == want.chart;
    assert r.0.stack == want.stack;
    assert r.0.built == want.built;
    assert r.0.trace == want.trace;
    assert r.0.instances == want.instances;
  }

  /** The logs and the cache of `AfterHomeEntry`, as those of `AfterMaybeExit` extended by HOME. */
  lemma HomeEntryParts(env: Evergreen)
    ensures HOME !in AfterMaybeExit(env).instances
    ensures AfterMaybeExit(env).built + [HOME] == AfterHomeEntry(env).built
    ensures AfterMaybeExit(env).trace + [Entry(HOME)] == AfterHomeEntry(env).trace
    ensures AfterMaybeExit(env).instances[HOME := Installed(env.positivePeriod)] == AfterHomeEntry(env).instances
  {
  }

  /**
    AWAY is entered with the data on any engine over the application chart:
    `anybody_home` is cleared, AWAY's object gets a handle with the negative
    period, AWAY is pushed and its entry logged; nothing else changes.
   */
  lemma AwayEnters(env: Evergreen, e: Engine<Fields, AppData>, d: AppData, fuel: nat)
    requires AppEngine(env, e) && 0 < fuel
    ensures SetState(e, AWAY, Some(d), fuel) ==
      Ok((e.(instances := e.instances[AWAY := Installed(env.negativePeriod)],
             built := if AWAY in e.instances then e.built else e.built + [AWAY],
             stack := e.stack + [AWAY],
             trace := e.trace + [Entry(AWAY)]), Some(d.(anybodyHome := false))))
  {
    assert AWAY in e.chart.info && e.chart.info[AWAY] == StateInfo(None, None, AwayClass(env));
    EnterLeaf(e, AWAY, d, fuel);
  }

  /**
    Each of the three states, alone on the stack, exits by deleting its poll
    handle: the data is untouched, the stack empties and the exit is logged.
   */
  lemma AppExit(env: Evergreen, e: Engine<Fields, AppData>, d: AppData, s: StateId)
    requires AppEngine(env, e) && e.stack == [s] && (s == MAYBE || s == AWAY || s == HOME)
    ensures ExitFrom(e, d, 0) ==
      Ok((e.(instances := e.instances[s := NoHandle(s)], stack := [], trace := e.trace + [Exit(s)]), d))
  {
    assert e.stack[|e.stack| - 1] == s && s in e.instances;
    assert e.chart.info[s].stateClass.exit(e.instances[s], d) == (NoHandle(s), d);
    ExitTop(e, d);
  }

  /** AWAY and HOME cannot be the state `init` enters: their `entry` writes to the data, which `init` does not pass. */
  lemma EnteringWithoutData(env: Evergreen, e: Engine<Fields, AppData>, s: StateId, fuel: nat)
    requires AppEngine(env, e) && 0 < fuel && (s == AWAY || s == HOME)
    ensures Init(e, s, fuel) == Err(EntryRaised(s))
  {
    assert s in e.chart.info && e.chart.info[s].defaultChild.None?;
    assert e.chart.info[s].stateClass.bareEntry(ObjectFor(e, s)).None?;
    InitLeaf(e, s, fuel);
  }

  /**
    The first `iterate` of `run_state_machine`: MAYBE requests HOME, exits,
    and HOME is entered with the data, which sets `anybody_home`; the engine
    does not terminate.
   */
  lemma FirstIterate(env: Evergreen, d: AppData, fuel: nat)
    requires 1 < fuel
    ensures IterateLevel(Started(env), d, 0, fuel) == Ok(Step(AfterHomeEntry(env), d.(anybodyHome := true), false))
    ensures AppEngine(env, AfterHomeEntry(env))
  {
    MaybeSteps(env, d, fuel);
    MaybeExits(env, d);
    HomeEnters(env, d, fuel - 1);
  }

  /**
    The second `iterate`: HOME checks its fresh handle, and the engine
    terminates unless the check is due and no device answers.
   */
  lemma SecondIterate(env: Evergreen, d: AppData, fuel: nat)
    requires 1 < fuel
    ensures var r1 := IterateLevel(Started(env), d, 0, fuel);
      r1.Ok? &&
      var r2 := IterateLevel(r1.value.engine, r1.value.data, 0, fuel);
      && r2.Ok?
      && (r2.value.terminate <==> !env.due(PollHandle(env.positivePeriod, 0)) || AnyAnswers(env))
      && (r2.value.terminate ==> r2.value.engine.stack == [])
      && (!r2.value.terminate ==> r2.value.engine.stack == [HOME] && !r2.value.data.anybodyHome)
  {
    FirstIterate(env, d, fuel);
    var r1 := IterateLevel(Started(env), d, 0, fuel).value;
    HomeIterate(env, r1.engine, r1.data, fuel);
    HomeSteady(env, r1.engine.instances[HOME], r1.data);
  }
}

=== FILE: common.dfy ===
/** Small wrapper types and sequence helpers shared by the whole model. */
module Common {

  /** Python's `None` or a present value. */
  datatype Option<+T> = None | Some(value: T)

  /** The outcome of an operation that may raise: a value, or the exception raised. */
  datatype Result<+T, +E> = Ok(value: T) | Err(error: E)

  /** No element of `xs` occurs twice. */
  ghost predicate NoDup<T>(xs: seq<T>) {
    forall i, j :: 0 <= i < j < |xs| ==> xs[i] != xs[j]
  }

  /** `i` is the first position of `xs` whose element satisfies `p`. */
  ghost predicate FirstAt<T>(xs: seq<T>, p: T -> bool, i: int) {
    && 0 <= i < |xs|
    && p(xs[i])
    && forall j :: 0 <= j < i ==> !p(xs[j])
  }

  /**
    The first position at or after `from` whose element satisfies `p`, scanning
    left to right as a Python `for` loop that returns on the first hit does.
   */
  function FirstIndex<T>(xs: seq<T>, p: T -> bool, from: nat): (r: Option<nat>)
    requires from <= |xs|
    decreases |xs| - from
    ensures r.Some? ==> from <= r.value < |xs| && p(xs[r.value])
    ensures r.Some? ==> forall j :: from <= j < r.value ==> !p(xs[j])
    ensures r.None? ==> forall j :: from <= j < |xs| ==> !p(xs[j])
  {
    if from == |xs| then None
    else if p(xs[from]) then Some(from)
    else FirstIndex(xs, p, from + 1)
  }
}

=== FILE: demo.dfy ===
/**
  The demonstration chart of the engine: top-level states Sitting, Walking and
  Running, with ChewingGum (the default) and Whistling below Walking. Each
  state's private fields are its counter; the shared data is three flags.
 */
module Demo {
  import opened Common
  import opened FiniteState
  import opened StateChart
  import opened StateChartEngine
  import opened EngineRuns
  import opened NestedRequests

  const Terminating := StateId("Terminating", 0)
  const Sitting := StateId("Sitting", 1)
  const Walking := StateId("Walking", 2)
  const Running := StateId("Running", 3)
  const ChewingGum := StateId("ChewingGum", 4)
  const Whistling := StateId("Whistling", 5)

  /** The application data of the demonstration loop. */
  datatype DemoData = DemoData(tired: bool, panicked: bool, restless: bool)

  /** The private counter of a state (`sittingCount`, `chewingGumCount`, ...); Walking keeps none. */
  type Counter = int

  function Zero(s: StateId): (r: Counter) {
    0
  }

  /** `ChewingGumState`: `entry` resets the count, `steady` increments it; Whistling is requested from a count of 5 on. */
  function ChewingGumClass(): (r: StateClass<Counter, DemoData>) {
    StateClass(
      Zero,
      (c: Counter, d: DemoData) => (0, d),
      (c: Counter) => Some(0),
      (c: Counter, d: DemoData) => (c + 1, d),
      [Transition(Whistling, (c: Counter, d: DemoData) => !(c < 5))],
      (c: Counter, d: DemoData) => (c, d))
  }

  /** `WhistlingState`: as ChewingGum, requesting ChewingGum from a whistle count of 5 on. */
  function WhistlingClass(): (r: StateClass<Counter, DemoData>) {
    StateClass(
      Zero,
      (c: Counter, d: DemoData) => (0, d),
      (c: Counter) => Some(0),
      (c: Counter, d: DemoData) => (c + 1, d),
      [Transition(ChewingGum, (c: Counter, d: DemoData) => !(c < 5))],
      (c: Counter, d: DemoData) => (c, d))
  }

  /** Sitting's per-tick work: count, and past 5 become restless and no longer tired. */
  function SittingTick(c: Counter, d: DemoData): (r: (Counter, DemoData)) {
    (c + 1, if c + 1 > 5 then d.(restless := true, tired := false) else d)
  }

  /** `SittingState`: Walking when calm, restless and not tired, else Running when panicked and not tired. */
  function SittingClass(): (r: StateClass<Counter, DemoData>) {
    StateClass(
      Zero,
      (c: Counter, d: DemoData) => (0, d),
      (c: Counter) => Some(0),
      (c: Counter, d: DemoData) => SittingTick(c, d),
      [Transition(Walking, (c: Counter, d: DemoData) => !d.panicked && d.restless && !d.tired),
       Transition(Running, (c: Counter, d: DemoData) => d.panicked && !d.tired)],
      (c: Counter, d: DemoData) => (c, d))
  }

  /** `WalkingState`: Sitting when calm, not restless and tired, else Running when panicked. */
  function WalkingClass(): (r: StateClass<Counter, DemoData>) {
    StateClass(
      Zero,
      (c: Counter, d: DemoData) => (c, d),
      (c: Counter) => Some(c),
      (c: Counter, d: DemoData) => (c, d),
      [Transition(Sitting, (c: Counter, d: DemoData) => !d.restless && !d.panicked && d.tired),
       Transition(Running, (c: Counter, d: DemoData) => d.panicked)],
      (c: Counter, d: DemoData) => (c, d))
  }

  /** Running's per-tick work: past a count of 5 become tired and no longer restless, then count. */
  function RunningTick(c: Counter, d: DemoData): (r: (Counter, DemoData)) {
    (c + 1, if c > 5 then d.(tired := true, restless := false) else d)
  }

  /** `RunningState`: Sitting when tired and panicked, else Walking when neither. */
  function RunningClass(): (r: StateClass<Counter, DemoData>) {
    StateClass(
      Zero,
      (c: Counter, d: DemoData) => (0, d),
      (c: Counter) => Some(0),
      (c: Counter, d: DemoData) => RunningTick(c, d),
      [Transition(Sitting, (c: Counter, d: DemoData) => d.tired && d.panicked),
       Transition(Walking, (c: Counter, d: DemoData) => !d.tired && !d.panicked)],
      (c: Counter, d: DemoData) => (c, d))
  }

  /** The demonstration `STATE_CHART`, in its insertion order. */
  function DemoChart(): (r: Chart<Counter, DemoData>) {
    RawChart(
      [Sitting, Walking, Running, ChewingGum, Whistling],
      map[Sitting := StateInfo(None, None, SittingClass()),
          Walking := StateInfo(None, Some(ChewingGum), WalkingClass()),
          Running := StateInfo(None, None, RunningClass()),
          ChewingGum := StateInfo(Some(Walking), None, ChewingGumClass()),
          Whistling := StateInfo(Some(Walking), None, WhistlingClass())])
  }

  /** The demonstration chart passes `check`: both children name Walking, which names ChewingGum back. */
  lemma DemoChartPasses()
    ensures Check(DemoChart()) == Passed
    ensures NewEngine(DemoChart()).Ok?
  {
    var c := DemoChart();
    assert IsConsistent(c) by {
      forall k | k in c.info ensures !ParentDangles(c, k) && !DefaultFaulty(c, k) {
        assert k == Sitting || k == Walking || k == Running || k == ChewingGum || k == Whistling;
      }
    }
  }

  /**
    Sitting's `steady`: after its tick, Walking is requested when calm,
    restless and not tired; failing that, Running when panicked and not tired;
    otherwise nothing. The first row wins whenever both would pass.
   */
  lemma SittingSteady(c: Counter, d: DemoData)
    ensures var st := SteadyCall(SittingClass(), c, d);
      var d1 := st.data;
      && (st.fields, st.data) == SittingTick(c, d)
      && st.request == if !d1.panicked && d1.restless && !d1.tired then Some(Walking)
                       else if d1.panicked && !d1.tired then Some(Running)
                       else None
  {
    var (c1, d1) := SittingTick(c, d);
    var ts := SittingClass().transitions;
    if !d1.panicked && d1.restless && !d1.tired {
      TransitioningPicksFirst(ts, c1, d1, 0);
    } else if d1.panicked && !d1.tired {
      TransitioningPicksFirst(ts, c1, d1, 1);
    }
  }

  /** ChewingGum's `steady` counts, and requests Whistling exactly when the new count is at least 5. */
  lemma ChewingGumSteady(c: Counter, d: DemoData)
    ensures SteadyCall(ChewingGumClass(), c, d) == SteadyResult(if c + 1 >= 5 then Some(Whistling) else None, c + 1, d)
  {
    if c + 1 >= 5 {
      TransitioningPicksFirst(ChewingGumClass().transitions, c + 1, d, 0);
    }
  }

  /**
    Walking's `steady`: its tick changes nothing; Sitting is requested when
    calm, not restless and tired, failing that Running when panicked, and
    otherwise nothing.
   */
  lemma WalkingSteady(c: Counter, d: DemoData)
    ensures SteadyCall(WalkingClass(), c, d) == SteadyResult(
      if !d.restless && !d.panicked && d.tired then Some(Sitting) else if d.panicked then Some(Running) else None, c, d)
  {
    var ts := WalkingClass().transitions;
    if !d.restless && !d.panicked && d.tired {
      TransitioningPicksFirst(ts, c, d, 0);
    } else if d.panicked {
      TransitioningPicksFirst(ts, c, d, 1);
    }
  }

  /** Running and Whistling are states of the chart without a default child. */
  lemma DemoLeaves()
    ensures Leaf(DemoChart(), Running) && Leaf(DemoChart(), Whistling)
    ensures DemoChart().info[Walking].stateClass == WalkingClass()
    ensures DemoChart().info[ChewingGum].stateClass == ChewingGumClass()
  {
  }

  /**
    Panic while chewing gum: with Walking and ChewingGum active, a chew count
    of 4 and panicked data, one `iterate` makes Walking request Running and
    then ChewingGum request Whistling. The nested request is honoured first
    (ChewingGum exits, Whistling enters), then Walking's own: Whistling and
    Walking exit and Running is entered, leaving Running alone active.
   */
  lemma PanicWhileChewing(e: Engine<Counter, DemoData>, d: DemoData, fuel: nat)
    requires Valid(e) && e.chart == DemoChart() && e.stack == [Walking, ChewingGum]
    requires ChewingGum in e.instances && e.instances[ChewingGum] == 4 && d.panicked && 2 < fuel
    ensures IterateLevel(e, d, 0, fuel).Ok?
    ensures var r := IterateLevel(e, d, 0, fuel).value;
      && !r.terminate
      && r.engine.stack == [Running]
      && r.engine.trace == e.trace + [Steady(Walking, Some(Running)), Steady(ChewingGum, Some(Whistling)), Exit(ChewingGum),
                                      Entry(Whistling), Exit(Whistling), Exit(Walking), Entry(Running)]
  {
    DemoLeaves();
    PanicRequests(e, d);
    InnerThenOuterRequest(e, d, fuel, Running, Whistling);
  }

  /** The two `steady` calls of the panic: Walking asks for Running, then ChewingGum, at its fifth chew, for Whistling. */
  lemma PanicRequests(e: Engine<Counter, DemoData>, d: DemoData)
    requires Valid(e) && e.chart == DemoChart() && e.stack == [Walking, ChewingGum]
    requires ChewingGum in e.instances && e.instances[ChewingGum] == 4 && d.panicked
    ensures SteadyAt(e, d, 0).request == Some(Running) && SteadyAt(e, d, 0).data == d
    ensures SteadyAt(e, d, 1).request == Some(Whistling)
  {
    assert e.stack[0] in e.instances;
    WalkingSteady(e.instances[Walking], d);
    ChewingGumSteady(4, d);
    DemoLeaves();
  }

  /** The engine after construction and `init(Sitting)`. */
  function SittingStarted(): (r: Engine<Counter, DemoData>) {
    DemoChartPasses();
    Engine(DemoChart(), [Sitting], map[Sitting := 0], [Sitting], [Entry(Sitting)])
  }

  /** `init(Sitting)` on a fresh engine: Sitting alone is active, its count reset. */
  lemma InitSitting(fuel: nat)
    requires 0 < fuel
    ensures NewEngine(DemoChart()).Ok?
    ensures Init(NewEngine(DemoChart()).value, Sitting, fuel) == Ok(SittingStarted())
    ensures Valid(SittingStarted())
  {
    DemoChartPasses();
    SittingEntry();
    var c := DemoChart();
    var e0 := NewEngine(c).value;
    assert ObjectFor(e0, Sitting) == 0;
    InitLeaf(e0, Sitting, fuel);
    var r := Init(e0, Sitting, fuel).value;
    var want := SittingStarted();
    assert r.chart == want.chart;
    assert r.stack == want.stack;
    assert r.built == want.built;
    assert r.trace == want.trace;
    assert r.instances == want.instances;
  }

  /** Sitting's chart entry: a top-level leaf whose object starts at 0 and whose bare `entry` resets it. */
  lemma SittingEntry()
    ensures Sitting in DemoChart().info && DemoChart().info[Sitting] == StateInfo(None, None, SittingClass())
    ensures SittingClass().create(Sitting) == 0 && SittingClass().bareEntry(0) == Some(0)
  {
  }

  /** The data of the scenario: restless, calm and not tired. */
  const Restless := DemoData(false, false, true)

  /** The engine after Sitting's first `steady`, which requested Walking. */
  function AfterSittingSteady(): (r: Engine<Counter, DemoData>) {
    DemoChartPasses();
    Engine(DemoChart(), [Sitting], map[Sitting := 1], [Sitting], [Entry(Sitting), Steady(Sitting, Some(Walking))])
  }

  /** The engine after Sitting has exited. */
  function AfterSittingExit(): (r: Engine<Counter, DemoData>) {
    DemoChartPasses();
    Engine(DemoChart(), [], map[Sitting := 1], [Sitting], [Entry(Sitting), Steady(Sitting, Some(Walking)), Exit(Sitting)])
  }

  /** The engine after Walking and its default child have been entered. */
  function WalkingChewing(): (r: Engine<Counter, DemoData>) {
    DemoChartPasses();
    Engine(DemoChart(), [Walking, ChewingGum], map[Sitting := 1, Walking := 0, ChewingGum := 0], [Sitting, Walking, ChewingGum],
      [Entry(Sitting), Steady(Sitting, Some(Walking)), Exit(Sitting), Entry(Walking), Entry(ChewingGum)])
  }

  lemma SittingSteadyAt()
    requires Valid(SittingStarted())
    ensures SteadyAt(SittingStarted(), Restless, 0) == SteadyResult(Some(Walking), 1, Restless)
    ensures AfterSteadyAt(SittingStarted(), Restless, 0) == AfterSittingSteady()
  {
    var e1 := SittingStarted();
    SittingSteady(0, Restless);
    assert e1.chart.info[Sitting].stateClass == SittingClass();
    var r := AfterSteadyAt(e1, Restless, 0);
    var want := AfterSittingSteady();
    assert r.chart == want.chart;
    assert r.stack == want.stack;
    assert r.built == want.built;
    assert r.trace == want.trace;
    assert r.instances == want.instances;
  }

  lemma SittingSteps(fuel: nat)
    requires 1 < fuel
    ensures Valid(AfterSittingSteady())
    ensures IterateLevel(SittingStarted(), Restless, 0, fuel) == ApplyRequest(AfterSittingSteady(), Restless, 0, Walking, fuel - 1)
  {
    InitSitting(1);
    SittingSteadyAt();
    SingleLevelIterate(SittingStarted(), Restless, fuel);
  }

  lemma SittingExits()
    requires Valid(AfterSittingSteady())
    ensures ExitFrom(AfterSittingSteady(), Restless, 0) == Ok((AfterSittingExit(), Restless))
  {
    var e2 := AfterSittingSteady();
    ExitTop(e2, Restless);
    var r := ExitFrom(e2, Restless, 0).value;
    var want := AfterSittingExit();
    assert r.1 == Restless;
    assert r.0.chart == want.chart;
    assert r.0.stack == want.stack;
    assert r.0.built == want.built;
    assert r.0.trace == want.trace;
    assert r.0.instances == want.instances;
  }

  lemma WalkingEnters(fuel: nat)
    requires 1 < fuel
    ensures SetState(AfterSittingExit(), Walking, Some(Restless), fuel) == Ok((WalkingChewing(), Some(Restless)))
  {
    var e3 := AfterSittingExit();
    EnterWithLeafChild(e3, Walking, ChewingGum, Restless, fuel);
    var (e4, d1) := EnteredWith(e3, Walking, Restless);
    assert ObjectFor(e3, Walking) == 0;
    assert d1 == Restless;
    assert ObjectFor(e4, ChewingGum) == 0;
    var r := SetState(e3, Walking, Some(Restless), fuel).value;
    var want := WalkingChewing();
    assert r.1 == Some(Restless);
    assert r.0.chart == want.chart;
    assert r.0.stack == want.stack;
    assert r.0.built == want.built;
    assert r.0.trace == want.trace;
    assert r.0.instances == want.instances;
  }

  /**
    The scenario: after `init(Sitting)`, one `iterate` with restless, calm and
    not tired data makes Sitting request Walking; Sitting exits, then Walking is
    entered and drilled into ChewingGum, leaving the path [Walking, ChewingGum];
    the hooks run in the order entry Sitting, steady Sitting, exit Sitting,
    entry Walking, entry ChewingGum.
   */
  lemma SittingToWalking(fuel: nat)
    requires 2 < fuel
    ensures IterateLevel(SittingStarted(), Restless, 0, fuel) == Ok(Step(WalkingChewing(), Restless, false))
    ensures Valid(WalkingChewing())
  {
    SittingSteps(fuel);
    SittingExits();
    WalkingEnters(fuel - 1);
  }
}

=== FILE: engine.dfy ===
/**
  The state chart engine (`StateChartEngine`): the active-state stack, the lazily
  filled instance cache, entry with drill-down into default children, and the
  recursive per-level `iterate`.
 */
module StateChartEngine {
  import opened Common
  import opened FiniteState
  import opened StateChart

  /** Lifecycle hook calls, in the order the engine makes them. */
  datatype Event = Entry(id: StateId) | Steady(id: StateId, request: Option<StateId>) | Exit(id: StateId)

  /**
    The exceptions the engine itself can raise: a missing chart key, indexing
    past the top of the stack, Python's recursion limit, and an `entry` hook that
    raised because it was given no data.
   */
  datatype Fault = KeyError(key: StateId) | IndexError(level: nat) | RecursionLimit | EntryRaised(id: StateId)

  /**
    The engine. `stack` is the active path, outermost first; `instances` is the
    cache of state objects; `built` logs every constructor call, in order; `trace`
    logs every entry, steady and exit hook call, in order. A cached object is
    represented by its private fields; its class is the one its chart entry names.
   */
  datatype Engine<!P, !D> = Engine(
    chart: Chart<P, D>,
    stack: seq<StateId>,
    instances: map<StateId, P>,
    built: seq<StateId>,
    trace: seq<Event>)

  /** The result of one `iterate` call: the engine, the application data and the termination flag. */
  datatype Step<!P, !D> = Step(engine: Engine<P, D>, data: D, terminate: bool)

  /**
    What holds of every engine the operations below produce from a freshly
    constructed one: the chart passed `check`, every cached object belongs to a
    chart entry, every active state has an object, and each id was constructed
    at most once (exactly once if cached).
   */
  ghost predicate Valid<P(!new), D(!new)>(e: Engine<P, D>) {
    && IsConsistent(e.chart)
    && (forall k :: k in e.instances ==> k in e.chart.info)
    && (forall i :: 0 <= i < |e.stack| ==> e.stack[i] in e.instances)
    && NoDup(e.built)
    && (forall k :: k in e.built <==> k in e.instances)
  }

  /** `Entry` events for `xs`, in order. */
  function Entries(xs: seq<StateId>): (r: seq<Event>)
    ensures |r| == |xs|
  {
    if xs == [] then [] else [Entry(xs[0])] + Entries(xs[1..])
  }

  /** `Exit` events for `xs`, last element first. */
  function Exits(xs: seq<StateId>): (r: seq<Event>)
    ensures |r| == |xs|
  {
    if xs == [] then [] else [Exit(xs[|xs| - 1])] + Exits(xs[..|xs| - 1])
  }

  /** Every state of `xs` has a chart entry and a cached object. */
  ghost predicate Cached<P, D>(c: Chart<P, D>, inst: map<StateId, P>, xs: seq<StateId>) {
    forall i :: 0 <= i < |xs| ==> xs[i] in c.info && xs[i] in inst
  }

  /**
    The `exit` hooks of the states `xs`, last element first, each run on its
    object in `inst` and handing the data on to the next: the objects and the
    data afterwards. Objects of states outside `xs` are left alone.
   */
  ghost function ExitHooks<P(!new), D(!new)>(c: Chart<P, D>, inst: map<StateId, P>, xs: seq<StateId>, d: D): (r: (map<StateId, P>, D))
    requires Cached(c, inst, xs)
    decreases |xs|
  {
    if xs == [] then (inst, d)
    else
      var top := xs[|xs| - 1];
      var (f, d1) := c.info[top].stateClass.exit(inst[top], d);
      ExitHooks(c, inst[top := f], xs[..|xs| - 1], d1)
  }

  /** The exit hooks create no object and leave the object of every state outside `xs` as it was. */
  lemma {:induction false} ExitHooksFrame<P(!new), D(!new)>(c: Chart<P, D>, inst: map<StateId, P>, xs: seq<StateId>, d: D, s: StateId)
    requires Cached(c, inst, xs)
    decreases |xs|
    ensures ExitHooks(c, inst, xs, d).0.Keys == inst.Keys
    ensures s in inst && s !in xs ==> ExitHooks(c, inst, xs, d).0[s] == inst[s]
  {
    if xs != [] {
      var top := xs[|xs| - 1];
      var (f, d1) := c.info[top].stateClass.exit(inst[top], d);
      var rest := xs[..|xs| - 1];
      assert forall i :: 0 <= i < |rest| ==> rest[i] == xs[i];
      ExitHooksFrame(c, inst[top := f], rest, d1, s);
      if s !in xs {
        assert s != top && s !in rest;
      }
    }
  }

  /**
    `stack` is `base` followed by the drill-down chain from `s`: `s`, its
    `defaultChild`, that state's `defaultChild`, and so on, ending at a state
    without one.
   */
  ghost predicate DrilledFrom<P(!new), D(!new)>(c: Chart<P, D>, base: seq<StateId>, s: StateId, stack: seq<StateId>) {
    && |stack| > |base|
    && stack[..|base|] == base
    && stack[|base|] == s
    && (forall i :: |base| <= i < |stack| ==> stack[i] in c.info)
    && (forall i :: |base| <= i < |stack| - 1 ==> c.info[stack[i]].defaultChild == Some(stack[i + 1]))
    && c.info[stack[|stack| - 1]].defaultChild.None?
  }

  /** One step of the drill-down: entering `s` and then its default child's chain. */
  lemma DrillStep<P(!new), D(!new)>(c: Chart<P, D>, base: seq<StateId>, s: StateId, child: StateId, stack: seq<StateId>)
    requires s in c.info && c.info[s].defaultChild == Some(child)
    requires DrilledFrom(c, base + [s], child, stack)
    ensures DrilledFrom(c, base, s, stack)
    ensures Entries(stack[|base|..]) == [Entry(s)] + Entries(stack[|base| + 1..])
  {
    assert stack[..|base|] == stack[..|base| + 1][..|base|];
    assert stack[|base|..][1..] == stack[|base| + 1..];
  }

  /** The recursive case of `SetState`, packaged: the chain and the entries below `s`. */
  lemma DrillStepEngine<P(!new), D(!new)>(e: Engine<P, D>, e2: Engine<P, D>, e3: Engine<P, D>, s: StateId, child: StateId)
    requires s in e.chart.info && e.chart.info[s].defaultChild == Some(child)
    requires e2.chart == e.chart && e2.stack == e.stack + [s] && e2.trace == e.trace + [Entry(s)]
    requires e3.chart == e2.chart
    requires DrilledFrom(e2.chart, e2.stack, child, e3.stack)
    requires e3.trace == e2.trace + Entries(e3.stack[|e2.stack|..])
    ensures DrilledFrom(e.chart, e.stack, s, e3.stack)
    ensures e3.trace == e.trace + Entries(e3.stack[|e.stack|..])
  {
    DrillStep(e.chart, e.stack, s, child, e3.stack);
  }

  /** The drill-down ends at once at a state without a default child. */
  lemma DrillLeaf<P(!new), D(!new)>(c: Chart<P, D>, base: seq<StateId>, s: StateId)
    requires s in c.info && c.info[s].defaultChild.None?
    ensures DrilledFrom(c, base, s, base + [s])
    ensures Entries((base + [s])[|base|..]) == [Entry(s)]
  {
    assert (base + [s])[|base|..] == [s];
  }

  /** One step of the exit loop: the top state exits first, then the rest down to `level`. */
  lemma ExitStep(stack: seq<StateId>, level: nat)
    requires level < |stack|
    ensures Exits(stack[level..]) == [Exit(stack[|stack| - 1])] + Exits(stack[..|stack| - 1][level..])
  {
    assert stack[level..][..|stack| - 1 - level] == stack[..|stack| - 1][level..];
  }

  /** One step of the exit hooks: the top state's hook, then the rest down to `level`. */
  lemma ExitHooksStep<P(!new), D(!new)>(c: Chart<P, D>, inst: map<StateId, P>, stack: seq<StateId>, level: nat, d: D, f: P, d1: D, inst2: map<StateId, P>, stack2: seq<StateId>)
    requires level < |stack| && Cached(c, inst, stack[level..])
    requires c.info[stack[|stack| - 1]].stateClass.exit(inst[stack[|stack| - 1]], d) == (f, d1)
    requires inst2 == inst[stack[|stack| - 1] := f] && stack2 == stack[..|stack| - 1]
    ensures Cached(c, inst2, stack2[level..])
    ensures ExitHooks(c, inst, stack[level..], d) == ExitHooks(c, inst2, stack2[level..], d1)
  {
    assert stack[level..][..|stack| - level - 1] == stack2[level..];
    assert stack[level..][|stack| - level - 1] == stack[|stack| - 1];
  }

  /** The recursive case of `ExitFrom`, packaged: the top exits first, then the rest. */
  lemma ExitStepEngine<P(!new), D(!new)>(e: Engine<P, D>, e2: Engine<P, D>, e4: Engine<P, D>, level: nat)
    requires level < |e.stack|
    requires e2.stack == e.stack[..|e.stack| - 1] && e2.trace == e.trace + [Exit(e.stack[|e.stack| - 1])]
    requires |e2.stack| <= level ==> e4.stack == e2.stack && e4.trace == e2.trace
    requires level < |e2.stack| ==> e4.stack == e2.stack[..level] && e4.trace == e2.trace + Exits(e2.stack[level..])
    ensures e4.stack == e.stack[..level] && e4.trace == e.trace + Exits(e.stack[level..])
  {
    ExitStep(e.stack, level);
    if |e2.stack| <= level {
      assert e.stack[..|e.stack| - 1][level..] == [];
    }
  }

  /** The ids of the `steady` calls logged in `t`, in order. */
  function SteadyIds(t: seq<Event>): (r: seq<StateId>) {
    if t == [] then []
    else (if t[0].Steady? then [t[0].id] else []) + SteadyIds(t[1..])
  }

  lemma {:induction false} SteadyIdsAppend(a: seq<Event>, b: seq<Event>)
    ensures SteadyIds(a + b) == SteadyIds(a) + SteadyIds(b)
  {
    if a == [] {
      assert a + b == b;
    } else {
      var h := if a[0].Steady? then [a[0].id] else [];
      assert (a + b)[0] == a[0] && (a + b)[1..] == a[1..] + b;
      assert SteadyIds(a + b) == h + SteadyIds(a[1..] + b);
      SteadyIdsAppend(a[1..], b);
      assert SteadyIds(a) == h + SteadyIds(a[1..]);
    }
  }

  /** The `steady` calls logged after `t0` in `t2`, split at the intermediate log `t1`. */
  lemma SteadyIdsJoin(t0: seq<Event>, t1: seq<Event>, t2: seq<Event>)
    requires t0 <= t1 <= t2
    ensures SteadyIds(t2[|t0|..]) == SteadyIds(t1[|t0|..]) + SteadyIds(t2[|t1|..])
  {
    assert t2[|t0|..] == t1[|t0|..] + t2[|t1|..];
    SteadyIdsAppend(t1[|t0|..], t2[|t1|..]);
  }

  lemma {:induction false} NoSteadyInEntries(xs: seq<StateId>)
    ensures SteadyIds(Entries(xs)) == []
  {
    if xs != [] {
      NoSteadyInEntries(xs[1..]);
      SteadyIdsAppend([Entry(xs[0])], Entries(xs[1..]));
    }
  }

  lemma {:induction false} NoSteadyInExits(xs: seq<StateId>)
    ensures SteadyIds(Exits(xs)) == []
  {
    if xs != [] {
      NoSteadyInExits(xs[..|xs| - 1]);
      SteadyIdsAppend([Exit(xs[|xs| - 1])], Exits(xs[..|xs| - 1]));
    }
  }

  /** Exits followed by entries log no `steady`. */
  lemma NoSteadyAfter(t: seq<Event>, exits: seq<Event>, entered: seq<StateId>)
    requires SteadyIds(exits) == []
    ensures SteadyIds((t + exits + Entries(entered))[|t|..]) == []
    ensures SteadyIds((t + exits)[|t|..]) == []
  {
    assert (t + exits + Entries(entered))[|t|..] == exits + Entries(entered);
    assert (t + exits)[|t|..] == exits;
    NoSteadyInEntries(entered);
    SteadyIdsAppend(exits, Entries(entered));
  }

  /** Every `steady` logged since position `from` requested nothing. */
  ghost predicate NoRequest(t: seq<Event>, from: nat) {
    forall i :: from <= i < |t| && t[i].Steady? ==> t[i].request.None?
  }

  /** Every hook call logged since position `from` is a `steady`. */
  ghost predicate OnlySteady(t: seq<Event>, from: nat) {
    forall i :: from <= i < |t| ==> t[i].Steady?
  }

  lemma NoRequestPrefix(t: seq<Event>, u: seq<Event>, from: nat)
    requires t <= u
    ensures NoRequest(u, from) ==> NoRequest(t, from)
  {
    if NoRequest(u, from) {
      forall i | from <= i < |t| && t[i].Steady? ensures t[i].request.None? {
        assert t[i] == u[i];
      }
    }
  }

  /** The engine constructor: it runs `check` once and refuses an inconsistent chart. */
  function NewEngine<P(!new), D(!new)>(c: Chart<P, D>): (r: Result<Engine<P, D>, CheckResult>)
    ensures r.Ok? <==> IsConsistent(c)
    ensures r.Err? ==> r.error == Check(c)
    ensures r.Ok? ==> Valid(r.value) && r.value.chart == c && r.value.stack == [] && r.value.instances == map[] && r.value.built == [] && r.value.trace == []
  {
    var verdict := Check(c);
    if verdict.Passed? then Ok(Engine(c, [], map[], [], [])) else Err(verdict)
  }

  /**
    `state_instance`: the cached object for `s`; on first reference it is
    constructed by the class of its chart entry, cached and logged in `built`.
    An id that is not a chart key raises `KeyError`. (The chart is consulted
    first; the source consults it only on a cache miss, which differs only for
    an id cached without a chart entry, and no `Valid` engine has one.)
   */
  function StateInstance<P(!new), D(!new)>(e: Engine<P, D>, s: StateId): (r: Result<(Engine<P, D>, P), Fault>)
    ensures s !in e.chart.info <==> r == Err(KeyError(s))
    ensures r.Err? ==> r.error == KeyError(s)
    ensures s in e.chart.info && s in e.instances ==> r == Ok((e, e.instances[s]))
    ensures s in e.chart.info && s !in e.instances ==>
      && r.Ok?
      && r.value.1 == e.chart.info[s].stateClass.create(s)
      && r.value.0 == e.(instances := e.instances[s := r.value.1], built := e.built + [s])
    ensures r.Ok? ==> r.value.0.chart == e.chart && r.value.0.stack == e.stack && r.value.0.trace == e.trace
    ensures Valid(e) && r.Ok? ==> Valid(r.value.0)
  {
    if s !in e.chart.info then Err(KeyError(s))
    else if s in e.instances then Ok((e, e.instances[s]))
    else
      var fields := e.chart.info[s].stateClass.create(s);
      Ok((e.(instances := e.instances[s := fields], built := e.built + [s]), fields))
  }

  /** The `entry` hook of `cls`, given the data or (as `init` does) given `None`. */
  function EnterHook<P(!new), D(!new)>(cls: StateClass<P, D>, fields: P, data: Option<D>): (r: Option<(P, Option<D>)>)
    ensures r.Some? ==> (r.value.1.None? <==> data.None?)
  {
    match data
    case Some(d) =>
      var (f, d') := cls.entry(fields, d);
      Some((f, Some(d')))
    case None =>
      match cls.bareEntry(fields)
      case None => None
      case Some(f) => Some((f, None))
  }

  /**
    `_set_state`: fetch the object, call its `entry`, push the id, and, when the
    chart gives a `defaultChild`, enter it through `init`, that is with no data.
    `fuel` stands for the remaining Python call depth.
   */
  function SetState<P(!new), D(!new)>(e: Engine<P, D>, s: StateId, data: Option<D>, fuel: nat): (r: Result<(Engine<P, D>, Option<D>), Fault>)
    decreases fuel
    ensures r.Ok? ==> r.value.0.chart == e.chart
    ensures r.Ok? ==> DrilledFrom(e.chart, e.stack, s, r.value.0.stack)
    ensures r.Ok? ==> r.value.0.trace == e.trace + Entries(r.value.0.stack[|e.stack|..])
    ensures r.Ok? ==> (r.value.1.None? <==> data.None?)
    ensures Valid(e) && r.Ok? ==> Valid(r.value.0)
    ensures Valid(e) && r.Err? && r.error.KeyError? ==> r.error.key == s && s !in e.chart.info
    ensures fuel == 0 ==> r == Err(RecursionLimit)
    ensures 0 < fuel && s !in e.chart.info ==> r == Err(KeyError(s))
    ensures r.Ok? ==> |r.value.0.stack| - |e.stack| <= fuel
  {
    if fuel == 0 then Err(RecursionLimit)
    else match StateInstance(e, s)
    case Err(f) => Err(f)
    case Ok((e1, fields0)) =>
      match EnterHook(e.chart.info[s].stateClass, fields0, data)
      case None => Err(EntryRaised(s))
      case Some((fields, data1)) =>
        var e2 := e1.(instances := e1.instances[s := fields], stack := e1.stack + [s], trace := e1.trace + [Entry(s)]);
        match e2.chart.info[s].defaultChild
          case None =>
            DrillLeaf(e.chart, e.stack, s);
            Ok((e2, data1))
          case Some(child) =>
            match SetState(e2, child, None, fuel - 1)
            case Err(f) => Err(f)
            case Ok((e3, _)) =>
              DrillStepEngine(e, e2, e3, s, child);
              Ok((e3, data1))
  }

  /** `init`: enter `s` and drill down through default children, passing no data. */
  function Init<P(!new), D(!new)>(e: Engine<P, D>, s: StateId, fuel: nat): (r: Result<Engine<P, D>, Fault>)
    ensures r.Ok? ==> r.value.chart == e.chart
    ensures r.Ok? ==> DrilledFrom(e.chart, e.stack, s, r.value.stack)
    ensures r.Ok? ==> r.value.trace == e.trace + Entries(r.value.stack[|e.stack|..])
    ensures Valid(e) && r.Ok? ==> Valid(r.value)
    ensures Valid(e) && r.Err? && r.error.KeyError? ==> r.error.key == s && s !in e.chart.info
    ensures 0 < fuel && s !in e.chart.info ==> r == Err(KeyError(s))
  {
    match SetState(e, s, None, fuel)
    case Err(f) => Err(f)
    case Ok((e1, _)) => Ok(e1)
  }

  /**
    The exit loop of `iterate`: for every index from the top of the stack down
    to `level`, call that state's `exit` and pop it.
   */
  function ExitFrom<P(!new), D(!new)>(e: Engine<P, D>, d: D, level: nat): (r: Result<(Engine<P, D>, D), Fault>)
    decreases |e.stack|
    ensures r.Ok? ==> r.value.0.chart == e.chart
    ensures r.Ok? && |e.stack| <= level ==> r.value.0.stack == e.stack && r.value.0.trace == e.trace
    ensures r.Ok? && level < |e.stack| ==>
      r.value.0.stack == e.stack[..level] && r.value.0.trace == e.trace + Exits(e.stack[level..])
    ensures Valid(e) ==> r.Ok? && Valid(r.value.0)
  {
    if |e.stack| <= level then Ok((e, d))
    else
      var top := e.stack[|e.stack| - 1];
      match StateInstance(e, top)
      case Err(f) => Err(f)
      case Ok((e1, fields0)) =>
        var (fields, d1) := e.chart.info[top].stateClass.exit(fields0, d);
        var e2 := e1.(instances := e1.instances[top := fields], stack := e1.stack[..|e1.stack| - 1], trace := e1.trace + [Exit(top)]);
        var r := ExitFrom(e2, d1, level);
        if r.Ok? then
          ExitStepEngine(e, e2, r.value.0, level);
          r
        else r
  }

  /**
    What the exit loop does to the objects and the data: each popped state's
    `exit` runs on its own cached object, innermost first, on the data the
    previous hook handed on; no object is created.
   */
  lemma {:induction false} ExitFromHooks<P(!new), D(!new)>(e: Engine<P, D>, d: D, level: nat)
    requires Valid(e) && level <= |e.stack|
    decreases |e.stack|
    ensures Cached(e.chart, e.instances, e.stack[level..])
    ensures var r := ExitFrom(e, d, level);
      var h := ExitHooks(e.chart, e.instances, e.stack[level..], d);
      r.Ok? && r.value.0.instances == h.0 && r.value.1 == h.1 && r.value.0.built == e.built
  {
    ValidCached(e, level);
    if level < |e.stack| {
      var top := e.stack[|e.stack| - 1];
      var (f, d1) := e.chart.info[top].stateClass.exit(e.instances[top], d);
      var e2 := e.(instances := e.instances[top := f], stack := e.stack[..|e.stack| - 1], trace := e.trace + [Exit(top)]);
      ExitPop(e, d, level, f, d1, e2);
      ExitFromHooks(e2, d1, level);
      ExitHooksStep(e.chart, e.instances, e.stack, level, d, f, d1, e2.instances, e2.stack);
    }
  }

  /** The recursive case of `ExitFrom` on a valid engine: the top state's hook runs on its cached object, and the rest follows. */
  lemma ExitPop<P(!new), D(!new)>(e: Engine<P, D>, d: D, level: nat, f: P, d1: D, e2: Engine<P, D>)
    requires Valid(e) && level < |e.stack|
    requires e.chart.info[e.stack[|e.stack| - 1]].stateClass.exit(e.instances[e.stack[|e.stack| - 1]], d) == (f, d1)
    requires e2 == e.(instances := e.instances[e.stack[|e.stack| - 1] := f], stack := e.stack[..|e.stack| - 1], trace := e.trace + [Exit(e.stack[|e.stack| - 1])])
    ensures Valid(e2) && level <= |e2.stack| && e2.chart == e.chart && e2.built == e.built
    ensures ExitFrom(e, d, level) == ExitFrom(e2, d1, level)
  {
    var top := e.stack[|e.stack| - 1];
    assert StateInstance(e, top) == Ok((e, e.instances[top]));
    ValidPop(e, f, e2);
  }

  /** Replacing the top state's object and popping it keeps the engine valid. */
  lemma ValidPop<P(!new), D(!new)>(e: Engine<P, D>, f: P, e2: Engine<P, D>)
    requires Valid(e) && 0 < |e.stack|
    requires e2 == e.(instances := e.instances[e.stack[|e.stack| - 1] := f], stack := e.stack[..|e.stack| - 1], trace := e.trace + [Exit(e.stack[|e.stack| - 1])])
    ensures Valid(e2)
  {
    var top := e.stack[|e.stack| - 1];
    assert top in e.instances;
    assert e2.instances.Keys == e.instances.Keys;
    forall i | 0 <= i < |e2.stack|
      ensures e2.stack[i] in e2.instances
    {
      assert e2.stack[i] == e.stack[i];
    }
  }

  /** On a valid engine, every state on the stack from `level` up has its object. */
  lemma ValidCached<P(!new), D(!new)>(e: Engine<P, D>, level: nat)
    ensures Valid(e) && level <= |e.stack| ==> Cached(e.chart, e.instances, e.stack[level..])
  {
    if Valid(e) && level <= |e.stack| {
      forall i | 0 <= i < |e.stack| - level
        ensures e.stack[level..][i] in e.chart.info && e.stack[level..][i] in e.instances
      {
        assert e.stack[level..][i] == e.stack[level + i];
      }
    }
  }

  /**
    Honouring a request made at `level`: exit and pop every state from the top
    down to `level`; a target whose ordinal value is 0 then terminates the
    machine, any other target is entered with the data and drilled into.
   */
  function ApplyRequest<P(!new), D(!new)>(e: Engine<P, D>, d: D, level: nat, target: StateId, fuel: nat): (r: Result<Step<P, D>, Fault>)
    requires level < |e.stack|
    ensures r.Ok? ==> Preserves(e, r.value.engine, level)
    ensures r.Ok? ==> SteadyIds(r.value.engine.trace[|e.trace|..]) == []
    ensures r.Ok? ==> (r.value.terminate <==> target.value == 0)
    ensures r.Ok? && target.value == 0 ==>
      r.value.engine.stack == e.stack[..level] && r.value.engine.trace == e.trace + Exits(e.stack[level..])
    ensures r.Ok? && target.value != 0 ==>
      && DrilledFrom(e.chart, e.stack[..level], target, r.value.engine.stack)
      && r.value.engine.trace == e.trace + Exits(e.stack[level..]) + Entries(r.value.engine.stack[level..])
    ensures Valid(e) && r.Ok? ==> Valid(r.value.engine)
    ensures Valid(e) && r.Err? && r.error.KeyError? ==> target.value != 0 && r.error.key == target && target !in e.chart.info
    ensures Valid(e) && target.value == 0 ==> r.Ok?
    ensures Valid(e) && 0 < fuel && target.value != 0 && target !in e.chart.info ==> r == Err(KeyError(target))
  {
    match ExitFrom(e, d, level)
    case Err(f) => Err(f)
    case Ok((e1, d1)) =>
      NoSteadyInExits(e.stack[level..]);
      NoSteadyAfter(e.trace, Exits(e.stack[level..]), []);
      if target.value == 0 then Ok(Step(e1, d1, true))
      else match SetState(e1, target, Some(d1), fuel)
        case Err(f) => Err(f)
        case Ok((e2, d2)) =>
          NoSteadyAfter(e.trace, Exits(e.stack[level..]), e2.stack[level..]);
          Ok(Step(e2, match d2 case Some(x) => x case None => d1, false))
  }

  /**
    What a call at `level` leaves alone: the chart, everything logged before it,
    and the stack below `level`.
   */
  ghost predicate Preserves<P(!new), D(!new)>(e: Engine<P, D>, e': Engine<P, D>, level: nat) {
    && e'.chart == e.chart
    && e.trace <= e'.trace
    && level <= |e.stack| && level <= |e'.stack|
    && e'.stack[..level] == e.stack[..level]
  }

  /** Replacing a cached object's fields and logging a `steady` keep an engine valid. */
  lemma ValidAfterSteady<P(!new), D(!new)>(e: Engine<P, D>, s: StateId, fields: P, req: Option<StateId>)
    requires Valid(e) && s in e.instances
    ensures Valid(e.(instances := e.instances[s := fields], trace := e.trace + [Steady(s, req)]))
  {
  }

  lemma PreservesTrans<P(!new), D(!new)>(a: Engine<P, D>, b: Engine<P, D>, c: Engine<P, D>, level: nat, level2: nat)
    requires level <= level2 && Preserves(a, b, level2) && Preserves(b, c, level)
    ensures Preserves(a, c, level)
  {
    assert b.stack[..level] == b.stack[..level2][..level];
  }

  /**
    `iterate(current_data, level)`, lines up to the `steady` call: fetch the
    object of `stack[level]`, run its `steady` and log the request; the rest of
    the call is `AfterSteady`.
   */
  function IterateLevel<P(!new), D(!new)>(e: Engine<P, D>, d: D, level: nat, fuel: nat): (r: Result<Step<P, D>, Fault>)
    decreases fuel, 0, 0
    ensures 0 < fuel && |e.stack| <= level ==> r == Err(IndexError(level))
    ensures r.Ok? ==> level < |e.stack| && Preserves(e, r.value.engine, level)
    ensures r.Ok? ==>
      && |e.trace| < |r.value.engine.trace|
      && r.value.engine.trace[|e.trace|].Steady?
      && r.value.engine.trace[|e.trace|].id == e.stack[level]
    ensures r.Ok? && NoRequest(r.value.engine.trace, |e.trace|) ==>
      r.value.engine.stack == e.stack && !r.value.terminate && OnlySteady(r.value.engine.trace, |e.trace|)
    ensures r.Ok? && |e.stack| == level + 1 ==> SteadyIds(r.value.engine.trace[|e.trace|..]) == [e.stack[level]]
    ensures r.Ok? && |e.stack| == level + 2 ==>
      SteadyIds(r.value.engine.trace[|e.trace|..]) == [e.stack[level], e.stack[level + 1]]
    ensures r.Ok? ==> 0 < |SteadyIds(r.value.engine.trace[|e.trace|..])|
    ensures r.Ok? && r.value.engine.trace[|e.trace|].request.Some? ==>
      var t := r.value.engine.trace[|e.trace|].request.value;
      && (t.value == 0 ==> r.value.terminate)
      && (!r.value.terminate ==> t.value != 0 && DrilledFrom(e.chart, e.stack[..level], t, r.value.engine.stack))
    ensures Valid(e) && r.Ok? ==> Valid(r.value.engine)
    ensures Valid(e) && SilentFrom(e, level) && level < |e.stack| <= level + fuel ==>
      r.Ok? && !r.value.terminate && r.value.engine.stack == e.stack
  {
    if fuel == 0 then Err(RecursionLimit)
    else if |e.stack| <= level then Err(IndexError(level))
    else
      var s := e.stack[level];
      match StateInstance(e, s)
      case Err(f) => Err(f)
      case Ok((e1, fields0)) =>
        var st := SteadyCall(e.chart.info[s].stateClass, fields0, d);
        var e2 := e1.(instances := e1.instances[s := st.fields], trace := e1.trace + [Steady(s, st.request)]);
        SteadySilent(e, e1, e2, level, s, fields0, d, st, fuel);
        var r := AfterSteady(e2, st.data, level, st.request, fuel - 1);
        if r.Ok? then
          IterateFrame(e, e1, e2, r.value, level, s, st.fields, st.request);
          r
        else r
  }

  /** Every state of the stack from `level` up is in the chart and its `steady` never requests a transition. */
  ghost predicate SilentFrom<P(!new), D(!new)>(e: Engine<P, D>, level: nat) {
    forall i :: level <= i < |e.stack| ==> e.stack[i] in e.chart.info && Silent(e.chart.info[e.stack[i]].stateClass)
  }

  /** On a silent level, the `steady` call requests nothing, whatever the fields and the data. */
  lemma QuietStep<P(!new), D(!new)>(e: Engine<P, D>, level: nat, fields: P, d: D)
    requires level < |e.stack|
    ensures SilentFrom(e, level) ==> QuietOn(e.chart.info[e.stack[level]].stateClass, fields, d)
  {
  }

  /** The `steady` step of a silent level on a valid engine: it requests nothing and leaves a valid engine, silent from the next level up. */
  lemma SteadySilent<P(!new), D(!new)>(e: Engine<P, D>, e1: Engine<P, D>, e2: Engine<P, D>, level: nat, s: StateId, fields: P, d: D, st: SteadyResult<P, D>, fuel: nat)
    requires level < |e.stack| && s == e.stack[level] && 0 < fuel
    requires StateInstance(e, s) == Ok((e1, fields))
    requires st == SteadyCall(e.chart.info[s].stateClass, fields, d)
    requires e2 == e1.(instances := e1.instances[s := st.fields], trace := e1.trace + [Steady(s, st.request)])
    ensures Valid(e) && SilentFrom(e, level) && |e.stack| <= level + fuel ==>
      Valid(e2) && st.request.None? && SilentFrom(e2, level + 1) && |e2.stack| <= level + 1 + (fuel - 1)
  {
    if Valid(e) && SilentFrom(e, level) && |e.stack| <= level + fuel {
      QuietStep(e, level, fields, d);
      SilentKept(e, e2, level, level + 1);
      ValidAfterSteady(e1, s, st.fields, st.request);
    }
  }

  /** Silence from `level` up depends only on the chart and the stack, and holds from any higher level too. */
  lemma SilentKept<P(!new), D(!new)>(e: Engine<P, D>, e': Engine<P, D>, level: nat, level': nat)
    ensures SilentFrom(e, level) && level <= level' && e'.chart == e.chart && e'.stack == e.stack ==> SilentFrom(e', level')
  {
  }

  /** The frame of `IterateLevel`, packaged: `e2` is `e` after the `steady` call, `fin` the final result. */
  lemma IterateFrame<P(!new), D(!new)>(e: Engine<P, D>, e1: Engine<P, D>, e2: Engine<P, D>, fin: Step<P, D>, level: nat, s: StateId, fields: P, req: Option<StateId>)
    requires level < |e.stack| && s == e.stack[level]
    requires e1.chart == e.chart && e1.stack == e.stack && e1.trace == e.trace
    requires Valid(e) ==> Valid(e1) && s in e1.instances
    requires e2 == e1.(instances := e1.instances[s := fields], trace := e1.trace + [Steady(s, req)])
    requires Preserves(e2, fin.engine, level)
    requires req.None? && NoRequest(fin.engine.trace, |e2.trace|) ==>
      fin.engine.stack == e2.stack && !fin.terminate && OnlySteady(fin.engine.trace, |e2.trace|)
    requires |e2.stack| == level + 1 ==> SteadyIds(fin.engine.trace[|e2.trace|..]) == []
    requires |e2.stack| == level + 2 ==> SteadyIds(fin.engine.trace[|e2.trace|..]) == [e2.stack[level + 1]]
    requires req.Some? && req.value.value == 0 ==> fin.terminate
    requires req.Some? && !fin.terminate ==> req.value.value != 0 && DrilledFrom(e2.chart, e2.stack[..level], req.value, fin.engine.stack)
    requires Valid(e2) ==> Valid(fin.engine)
    ensures Preserves(e, fin.engine, level)
    ensures |e.trace| < |fin.engine.trace| && fin.engine.trace[|e.trace|] == Steady(s, req)
    ensures NoRequest(fin.engine.trace, |e.trace|) ==>
      fin.engine.stack == e.stack && !fin.terminate && OnlySteady(fin.engine.trace, |e.trace|)
    ensures fin.engine.trace[|e.trace|].Steady? && fin.engine.trace[|e.trace|].id == e.stack[level]
    ensures |e.stack| == level + 1 ==> SteadyIds(fin.engine.trace[|e.trace|..]) == [e.stack[level]]
    ensures |e.stack| == level + 2 ==> SteadyIds(fin.engine.trace[|e.trace|..]) == [e.stack[level], e.stack[level + 1]]
    ensures 0 < |SteadyIds(fin.engine.trace[|e.trace|..])|
    ensures fin.engine.trace[|e.trace|].request.Some? ==>
      var t := fin.engine.trace[|e.trace|].request.value;
      && (t.value == 0 ==> fin.terminate)
      && (!fin.terminate ==> t.value != 0 && DrilledFrom(e.chart, e.stack[..level], t, fin.engine.stack))
    ensures Valid(e) ==> Valid(fin.engine)
  {
    if Valid(e) {
      ValidAfterSteady(e1, s, fields, req);
    }
    assert fin.engine.trace[|e.trace|] == e2.trace[|e.trace|];
    assert fin.engine.trace[|e.trace|..] == [Steady(s, req)] + fin.engine.trace[|e2.trace|..];
    SteadyIdsAppend([Steady(s, req)], fin.engine.trace[|e2.trace|..]);
  }

  /**
    `iterate(current_data, level)`, from the nested loop on: call `iterate` at
    `level + 1` once for each index above `level` (the count is fixed before the
    first nested call), keeping only the last nested result; then, unless that
    result says terminate, honour this level's own request `req`, computed
    before the nested calls.
   */
  function AfterSteady<P(!new), D(!new)>(e: Engine<P, D>, d: D, level: nat, req: Option<StateId>, fuel: nat): (r: Result<Step<P, D>, Fault>)
    requires level < |e.stack|
    decreases fuel, |e.stack| - level, 0
    ensures r.Ok? ==> Preserves(e, r.value.engine, level)
    ensures r.Ok? && req.None? && NoRequest(r.value.engine.trace, |e.trace|) ==>
      r.value.engine.stack == e.stack && !r.value.terminate && OnlySteady(r.value.engine.trace, |e.trace|)
    ensures r.Ok? && |e.stack| == level + 1 ==> SteadyIds(r.value.engine.trace[|e.trace|..]) == []
    ensures r.Ok? && |e.stack| == level + 2 ==> SteadyIds(r.value.engine.trace[|e.trace|..]) == [e.stack[level + 1]]
    ensures r.Ok? && req.Some? && req.value.value == 0 ==> r.value.terminate
    ensures r.Ok? && req.Some? && !r.value.terminate ==>
      req.value.value != 0 && DrilledFrom(e.chart, e.stack[..level], req.value, r.value.engine.stack)
    ensures Valid(e) && r.Ok? ==> Valid(r.value.engine)
    ensures Valid(e) && req.None? && SilentFrom(e, level + 1) && |e.stack| <= level + 1 + fuel ==>
      r.Ok? && !r.value.terminate && r.value.engine.stack == e.stack
  {
    match Nested(e, d, level + 1, |e.stack| - level - 1, false, fuel)
    case Err(f) => Err(f)
    case Ok(n) =>
      var applied := !n.terminate && req.Some?;
      var r := if applied then ApplyRequest(n.engine, n.data, level, req.value, fuel) else Ok(n);
      if r.Ok? then
        AfterSteadyFrame(e, n, r.value, level, req, applied);
        r
      else r
  }

  /** The frame of `AfterSteady`, packaged: `n` is the result of the nested calls, `fin` the final one. */
  lemma AfterSteadyFrame<P(!new), D(!new)>(e: Engine<P, D>, n: Step<P, D>, fin: Step<P, D>, level: nat, req: Option<StateId>, applied: bool)
    requires level < |e.stack|
    requires Preserves(e, n.engine, level + 1)
    requires NoRequest(n.engine.trace, |e.trace|) ==>
      n.engine.stack == e.stack && !n.terminate && OnlySteady(n.engine.trace, |e.trace|)
    requires |e.stack| == level + 1 ==> n.engine == e
    requires |e.stack| == level + 2 ==> SteadyIds(n.engine.trace[|e.trace|..]) == [e.stack[level + 1]]
    requires applied ==> req.Some? && Preserves(n.engine, fin.engine, level)
    requires applied ==> SteadyIds(fin.engine.trace[|n.engine.trace|..]) == []
    requires !applied ==> fin == n
    requires Valid(e) ==> Valid(n.engine)
    requires applied ==> (fin.terminate <==> req.value.value == 0)
    requires applied && req.value.value != 0 ==> DrilledFrom(n.engine.chart, n.engine.stack[..level], req.value, fin.engine.stack)
    requires !applied && req.Some? ==> n.terminate
    requires applied && Valid(n.engine) ==> Valid(fin.engine)
    ensures Preserves(e, fin.engine, level)
    ensures req.None? && NoRequest(fin.engine.trace, |e.trace|) ==>
      fin.engine.stack == e.stack && !fin.terminate && OnlySteady(fin.engine.trace, |e.trace|)
    ensures |e.stack| == level + 1 ==> SteadyIds(fin.engine.trace[|e.trace|..]) == []
    ensures |e.stack| == level + 2 ==> SteadyIds(fin.engine.trace[|e.trace|..]) == [e.stack[level + 1]]
    ensures req.Some? && req.value.value == 0 ==> fin.terminate
    ensures req.Some? && !fin.terminate ==>
      req.value.value != 0 && DrilledFrom(e.chart, e.stack[..level], req.value, fin.engine.stack)
    ensures Valid(e) ==> Valid(fin.engine)
  {
    PreservesTrans(e, n.engine, n.engine, level, level + 1);
    if applied {
      PreservesTrans(e, n.engine, fin.engine, level, level);
      assert fin.engine.trace[|e.trace|..] == n.engine.trace[|e.trace|..] + fin.engine.trace[|n.engine.trace|..];
      SteadyIdsAppend(n.engine.trace[|e.trace|..], fin.engine.trace[|n.engine.trace|..]);
      if |e.stack| == level + 1 {
        assert n.engine.trace[|e.trace|..] == [];
      }
    } else if |e.stack| == level + 1 {
      assert fin.engine.trace[|e.trace|..] == [];
    }
  }

  /**
    The nested loop of `iterate`: `count` calls of `iterate` at `level`, each on
    the stack the previous one left, keeping only the last call's termination
    flag (`acc` before any call).
   */
  function Nested<P(!new), D(!new)>(e: Engine<P, D>, d: D, level: nat, count: nat, acc: bool, fuel: nat): (r: Result<Step<P, D>, Fault>)
    decreases fuel, count, 1
    ensures r.Ok? && count == 0 ==> r.value == Step(e, d, acc)
    ensures r.Ok? && level <= |e.stack| ==> Preserves(e, r.value.engine, level)
    ensures r.Ok? && count == 1 && |e.stack| == level + 1 ==> SteadyIds(r.value.engine.trace[|e.trace|..]) == [e.stack[level]]
    ensures r.Ok? && NoRequest(r.value.engine.trace, |e.trace|) ==>
      && r.value.engine.stack == e.stack
      && r.value.terminate == (acc && count == 0)
      && OnlySteady(r.value.engine.trace, |e.trace|)
    ensures r.Ok? ==> e.trace <= r.value.engine.trace && count <= |SteadyIds(r.value.engine.trace[|e.trace|..])|
    ensures Valid(e) && r.Ok? ==> Valid(r.value.engine)
    ensures Valid(e) && SilentFrom(e, level) && (0 < count ==> level < |e.stack| <= level + fuel) ==>
      r.Ok? && r.value.engine.stack == e.stack && r.value.terminate == (acc && count == 0)
  {
    if count == 0 then Ok(Step(e, d, acc))
    else match IterateLevel(e, d, level, fuel)
      case Err(f) => Err(f)
      case Ok(n) =>
        SilentKept(e, n.engine, level, level);
        var r := Nested(n.engine, n.data, level, count - 1, n.terminate, fuel);
        if r.Ok? then
          NoRequestPrefix(n.engine.trace, r.value.engine.trace, |e.trace|);
          SteadyIdsJoin(e.trace, n.engine.trace, r.value.engine.trace);
          r
        else r
  }
}

=== FILE: engine_runs.dfy ===
/**
  Whole `iterate` calls on stacks of a given depth: what one call does to a
  single active state, the repeated nested call on a three-deep stack, and a
  nested termination overriding the outer level's own request.
 */
module EngineRuns {
  import opened Common
  import opened FiniteState
  import opened StateChart
  import opened StateChartEngine

  /**
    The instance cache returns the identical object on a second reference, and
    constructs nothing more.
   */
  lemma StateInstanceCached<P(!new), D(!new)>(e: Engine<P, D>, s: StateId)
    requires StateInstance(e, s).Ok?
    ensures var (e1, fields) := StateInstance(e, s).value;
      && StateInstance(e1, s) == Ok((e1, fields))
      && e1.built == (if s in e.instances then e.built else e.built + [s])
  {
  }

  /** The `steady` call `iterate` makes on `stack[level]` of a valid engine, with its cached object. */
  function SteadyAt<P(!new), D(!new)>(e: Engine<P, D>, d: D, level: nat): (r: SteadyResult<P, D>)
    requires Valid(e) && level < |e.stack|
  {
    var s := e.stack[level];
    SteadyCall(e.chart.info[s].stateClass, e.instances[s], d)
  }

  /** `e` after the `steady` call on `stack[level]`: the object's new fields and the logged call. */
  function AfterSteadyAt<P(!new), D(!new)>(e: Engine<P, D>, d: D, level: nat): (r: Engine<P, D>)
    requires Valid(e) && level < |e.stack|
    ensures Valid(r) && r.stack == e.stack && r.chart == e.chart && r.built == e.built
    ensures r.trace == e.trace + [Steady(e.stack[level], SteadyAt(e, d, level).request)]
  {
    var s := e.stack[level];
    var st := SteadyAt(e, d, level);
    ValidAfterSteady(e, s, st.fields, st.request);
    e.(instances := e.instances[s := st.fields], trace := e.trace + [Steady(s, st.request)])
  }

  /**
    With one active state, `iterate` runs its `steady`; a request is then
    honoured at once (there are no nested levels to run or to terminate), and no
    request leaves the engine as it is apart from the object's fields and the
    logged call.
   */
  lemma SingleLevelIterate<P(!new), D(!new)>(e: Engine<P, D>, d: D, fuel: nat)
    requires Valid(e) && |e.stack| == 1 && 0 < fuel
    ensures var st := SteadyAt(e, d, 0);
      var e2 := AfterSteadyAt(e, d, 0);
      IterateLevel(e, d, 0, fuel) ==
        if st.request.None? then Ok(Step(e2, st.data, false))
        else ApplyRequest(e2, st.data, 0, st.request.value, fuel - 1)
  {
    var s := e.stack[0];
    var st := SteadyAt(e, d, 0);
    var e2 := AfterSteadyAt(e, d, 0);
    assert StateInstance(e, s) == Ok((e, e.instances[s]));
    assert Nested(e2, st.data, 1, 0, false, fuel - 1) == Ok(Step(e2, st.data, false));
  }

  /** Exiting from the top index calls the top state's `exit` and pops it, nothing more. */
  lemma ExitTop<P(!new), D(!new)>(e: Engine<P, D>, d: D)
    requires Valid(e) && 0 < |e.stack|
    ensures var s := e.stack[|e.stack| - 1];
      var (fields, d1) := e.chart.info[s].stateClass.exit(e.instances[s], d);
      ExitFrom(e, d, |e.stack| - 1) ==
        Ok((e.(instances := e.instances[s := fields], stack := e.stack[..|e.stack| - 1], trace := e.trace + [Exit(s)]), d1))
  {
    var s := e.stack[|e.stack| - 1];
    assert StateInstance(e, s) == Ok((e, e.instances[s]));
  }

  /**
    Exiting the top two states: the top one's `exit` runs first on its object,
    then the one below runs on its own object with the data the first handed on.
   */
  lemma ExitTwo<P(!new), D(!new)>(e: Engine<P, D>, d: D)
    requires Valid(e) && 2 <= |e.stack|
    ensures var s1 := e.stack[|e.stack| - 1];
      var s2 := e.stack[|e.stack| - 2];
      var (f1, d1) := e.chart.info[s1].stateClass.exit(e.instances[s1], d);
      var (f2, d2) := e.chart.info[s2].stateClass.exit(e.instances[s1 := f1][s2], d1);
      ExitFrom(e, d, |e.stack| - 2) ==
        Ok((e.(instances := e.instances[s1 := f1][s2 := f2], stack := e.stack[..|e.stack| - 2], trace := e.trace + [Exit(s1), Exit(s2)]), d2))
  {
    var s1 := e.stack[|e.stack| - 1];
    var (f1, d1) := e.chart.info[s1].stateClass.exit(e.instances[s1], d);
    var e2 := e.(instances := e.instances[s1 := f1], stack := e.stack[..|e.stack| - 1], trace := e.trace + [Exit(s1)]);
    assert StateInstance(e, s1) == Ok((e, e.instances[s1]));
    assert ExitFrom(e, d, |e.stack| - 2) == ExitFrom(e2, d1, |e.stack| - 2);
    ValidPop(e, f1, e2);
    ExitTop(e2, d1);
    var s2 := e.stack[|e.stack| - 2];
    assert e2.stack[|e2.stack| - 1] == s2;
    var (f2, d2) := e.chart.info[s2].stateClass.exit(e2.instances[s2], d1);
    assert e2.stack[..|e2.stack| - 1] == e.stack[..|e.stack| - 2];
    TraceTwo(e.trace, Exit(s1), Exit(s2), e2.trace, e2.trace + [Exit(s2)]);
    assert ExitFrom(e2, d1, |e2.stack| - 1) ==
      Ok((e.(instances := e.instances[s1 := f1][s2 := f2], stack := e.stack[..|e.stack| - 2], trace := e.trace + [Exit(s1), Exit(s2)]), d2));
  }

  /** The object `state_instance` hands out for `s`: the cached one, or a new one from the class's constructor. */
  function ObjectFor<P(!new), D(!new)>(e: Engine<P, D>, s: StateId): (r: P)
    requires s in e.chart.info
  {
    if s in e.instances then e.instances[s] else e.chart.info[s].stateClass.create(s)
  }

  /**
    Entering a state without a default child, with data: its `entry` runs once
    on its (cached or new) object, the id is pushed, and the drill-down stops.
   */
  lemma EnterLeaf<P(!new), D(!new)>(e: Engine<P, D>, s: StateId, d: D, fuel: nat)
    requires 0 < fuel && s in e.chart.info && e.chart.info[s].defaultChild.None?
    ensures var (fields, d1) := e.chart.info[s].stateClass.entry(ObjectFor(e, s), d);
      SetState(e, s, Some(d), fuel) ==
        Ok((e.(instances := e.instances[s := fields],
               built := if s in e.instances then e.built else e.built + [s],
               stack := e.stack + [s],
               trace := e.trace + [Entry(s)]), Some(d1)))
  {
    var e1 := e.(instances := e.instances[s := ObjectFor(e, s)], built := if s in e.instances then e.built else e.built + [s]);
    assert StateInstance(e, s) == Ok((if s in e.instances then e else e1, ObjectFor(e, s)));
    var (fields, d1) := e.chart.info[s].stateClass.entry(ObjectFor(e, s), d);
    assert EnterHook(e.chart.info[s].stateClass, ObjectFor(e, s), Some(d)) == Some((fields, Some(d1)));
    var e0 := if s in e.instances then e else e1;
    var e2 := e0.(instances := e0.instances[s := fields], stack := e0.stack + [s], trace := e0.trace + [Entry(s)]);
    assert SetState(e, s, Some(d), fuel) == Ok((e2, Some(d1)));
    assert e0.instances[s := fields] == e.instances[s := fields];
  }

  /**
    Entering a state without a default child and with no data, as `init` does:
    when the bare `entry` succeeds the id is pushed; when it raises, so does `init`.
   */
  lemma InitLeaf<P(!new), D(!new)>(e: Engine<P, D>, s: StateId, fuel: nat)
    requires 0 < fuel && s in e.chart.info && e.chart.info[s].defaultChild.None?
    ensures var hook := e.chart.info[s].stateClass.bareEntry(ObjectFor(e, s));
      Init(e, s, fuel) ==
        if hook.None? then Err(EntryRaised(s))
        else Ok(e.(instances := e.instances[s := hook.value],
                   built := if s in e.instances then e.built else e.built + [s],
                   stack := e.stack + [s],
                   trace := e.trace + [Entry(s)]))
  {
    var e1 := e.(instances := e.instances[s := ObjectFor(e, s)], built := if s in e.instances then e.built else e.built + [s]);
    assert StateInstance(e, s) == Ok((if s in e.instances then e else e1, ObjectFor(e, s)));
    var hook := e.chart.info[s].stateClass.bareEntry(ObjectFor(e, s));
    assert EnterHook(e.chart.info[s].stateClass, ObjectFor(e, s), None) == if hook.None? then None else Some((hook.value, None));
    if hook.Some? {
      var e0 := if s in e.instances then e else e1;
      var e2 := e0.(instances := e0.instances[s := hook.value], stack := e0.stack + [s], trace := e0.trace + [Entry(s)]);
      assert SetState(e, s, None, fuel) == Ok((e2, None));
      assert e0.instances[s := hook.value] == e.instances[s := hook.value];
    }
  }

  /** `e` after `entry` of `s` with data: the object's new fields, the construction if any, the push and the log. */
  function EnteredWith<P(!new), D(!new)>(e: Engine<P, D>, s: StateId, d: D): (r: (Engine<P, D>, D))
    requires s in e.chart.info
  {
    var (fields, d1) := e.chart.info[s].stateClass.entry(ObjectFor(e, s), d);
    (e.(instances := e.instances[s := fields],
        built := if s in e.instances then e.built else e.built + [s],
        stack := e.stack + [s],
        trace := e.trace + [Entry(s)]), d1)
  }

  /**
    Entering a state whose default child has none of its own: `entry` of the
    state with the data, its push, then the child's bare `entry` (no data, as
    `init` passes none) and its push; if that bare `entry` raises, so does the
    whole call.
   */
  lemma EnterWithLeafChild<P(!new), D(!new)>(e: Engine<P, D>, s: StateId, ch: StateId, d: D, fuel: nat)
    requires 1 < fuel && s in e.chart.info && e.chart.info[s].defaultChild == Some(ch)
    requires ch in e.chart.info && e.chart.info[ch].defaultChild.None?
    ensures var (e2, d1) := EnteredWith(e, s, d);
      var hook := e.chart.info[ch].stateClass.bareEntry(ObjectFor(e2, ch));
      SetState(e, s, Some(d), fuel) ==
        if hook.None? then Err(EntryRaised(ch))
        else Ok((e2.(instances := e2.instances[ch := hook.value],
                     built := if ch in e2.instances then e2.built else e2.built + [ch],
                     stack := e2.stack + [ch],
                     trace := e2.trace + [Entry(ch)]), Some(d1)))
  {
    var e1 := e.(instances := e.instances[s := ObjectFor(e, s)], built := if s in e.instances then e.built else e.built + [s]);
    assert StateInstance(e, s) == Ok((if s in e.instances then e else e1, ObjectFor(e, s)));
    var (fields, d1) := e.chart.info[s].stateClass.entry(ObjectFor(e, s), d);
    assert EnterHook(e.chart.info[s].stateClass, ObjectFor(e, s), Some(d)) == Some((fields, Some(d1)));
    var e0 := if s in e.instances then e else e1;
    var e2 := e0.(instances := e0.instances[s := fields], stack := e0.stack + [s], trace := e0.trace + [Entry(s)]);
    assert e0.instances[s := fields] == e.instances[s := fields];
    assert e2 == EnteredWith(e, s, d).0;
    InitLeaf(e2, ch, fuel - 1);
    assert SetState(e2, ch, None, fuel - 1).Ok? ==> SetState(e2, ch, None, fuel - 1).value.0 == Init(e2, ch, fuel - 1).value;
  }

  /** A request for a target of value 0 exits from `level` up and terminates, entering nothing. */
  lemma ApplyTerminal<P(!new), D(!new)>(e: Engine<P, D>, d: D, level: nat, t: StateId, fuel: nat)
    requires level < |e.stack| && t.value == 0 && ExitFrom(e, d, level).Ok?
    ensures var (e1, d1) := ExitFrom(e, d, level).value;
      ApplyRequest(e, d, level, t, fuel) == Ok(Step(e1, d1, true))
  {
  }

  /**
    A request for a target of value 0 on a valid engine: the states from
    `level` up exit, their hooks run innermost first, and the machine
    terminates with the objects and the data those hooks left.
   */
  lemma ApplyTerminates<P(!new), D(!new)>(e: Engine<P, D>, d: D, level: nat, t: StateId, fuel: nat)
    requires Valid(e) && level < |e.stack| && t.value == 0
    ensures Cached(e.chart, e.instances, e.stack[level..])
    ensures var h := ExitHooks(e.chart, e.instances, e.stack[level..], d);
      ApplyRequest(e, d, level, t, fuel) ==
        Ok(Step(e.(instances := h.0, stack := e.stack[..level], trace := e.trace + Exits(e.stack[level..])), h.1, true))
  {
    ExitExact(e, d, level);
  }

  /**
    A request for any other target: the states from `level` up exit, their hooks
    run innermost first, and the target is then entered with the data the last
    hook handed on, on the engine those hooks left behind.
   */
  lemma ApplyEnters<P(!new), D(!new)>(e: Engine<P, D>, d: D, level: nat, t: StateId, fuel: nat)
    requires Valid(e) && level < |e.stack| && t.value != 0
    ensures Cached(e.chart, e.instances, e.stack[level..])
    ensures var h := ExitHooks(e.chart, e.instances, e.stack[level..], d);
      var e1 := e.(instances := h.0, stack := e.stack[..level], trace := e.trace + Exits(e.stack[level..]));
      ApplyRequest(e, d, level, t, fuel) ==
        match SetState(e1, t, Some(h.1), fuel)
        case Err(f) => Err(f)
        case Ok((e2, d2)) => Ok(Step(e2, d2.value, false))
  {
    ExitExact(e, d, level);
  }

  /** The exit loop's whole result on a valid engine, field by field. */
  lemma ExitExact<P(!new), D(!new)>(e: Engine<P, D>, d: D, level: nat)
    requires Valid(e) && level <= |e.stack|
    ensures Cached(e.chart, e.instances, e.stack[level..])
    ensures var h := ExitHooks(e.chart, e.instances, e.stack[level..], d);
      ExitFrom(e, d, level) == Ok((e.(instances := h.0, stack := e.stack[..level], trace := e.trace + Exits(e.stack[level..])), h.1))
  {
    ExitFromHooks(e, d, level);
    if level == |e.stack| {
      assert e.stack[..level] == e.stack && e.stack[level..] == [];
      assert e.trace + Exits([]) == e.trace;
    }
  }

  /** At the innermost level there are no nested calls: the level's own request is honoured at once. */
  lemma AfterSteadyLeaf<P(!new), D(!new)>(e: Engine<P, D>, d: D, level: nat, req: Option<StateId>, fuel: nat)
    requires |e.stack| == level + 1
    ensures AfterSteady(e, d, level, req, fuel) ==
      if req.Some? then ApplyRequest(e, d, level, req.value, fuel) else Ok(Step(e, d, false))
  {
    assert Nested(e, d, level + 1, 0, false, fuel) == Ok(Step(e, d, false));
  }

  /**
    The innermost level of a call whose `steady` requests a target of value 0:
    the state exits, the stack shrinks to `level`, and termination is reported.
   */
  lemma TopTerminates<P(!new), D(!new)>(e: Engine<P, D>, d: D, fuel: nat, t: StateId)
    requires Valid(e) && |e.stack| == 2 && 0 < fuel
    requires SteadyAt(e, d, 1).request == Some(t) && t.value == 0
    ensures var st := SteadyAt(e, d, 1);
      var e2 := AfterSteadyAt(e, d, 1);
      var b := e.stack[1];
      var x := e.chart.info[b].stateClass.exit(st.fields, st.data);
      IterateLevel(e, d, 1, fuel) ==
        Ok(Step(e2.(instances := e2.instances[b := x.0], stack := [e.stack[0]], trace := e2.trace + [Exit(b)]), x.1, true))
  {
    IterateUnfold(e, d, 1, fuel);
    var st := SteadyAt(e, d, 1);
    var e2 := AfterSteadyAt(e, d, 1);
    AfterSteadyLeaf(e2, st.data, 1, st.request, fuel - 1);
    ExitTop(e2, st.data);
    TakeOne(e2.stack);
    ApplyTerminal(e2, st.data, 1, t, fuel - 1);
  }

  /** `iterate(level)` returns normally with `r`. */
  ghost predicate IterateOk<P(!new), D(!new)>(e: Engine<P, D>, d: D, level: nat, fuel: nat, r: Step<P, D>) {
    IterateLevel(e, d, level, fuel) == Ok(r)
  }

  /** The part of `iterate(level)` after its `steady` call returns normally with `r`. */
  ghost predicate AfterSteadyOk<P(!new), D(!new)>(e: Engine<P, D>, d: D, level: nat, req: Option<StateId>, fuel: nat, r: Step<P, D>) {
    level < |e.stack| && AfterSteady(e, d, level, req, fuel) == Ok(r)
  }

  /** The nested loop returns normally with `r`. */
  ghost predicate NestedOk<P(!new), D(!new)>(e: Engine<P, D>, d: D, level: nat, count: nat, acc: bool, fuel: nat, r: Step<P, D>) {
    Nested(e, d, level, count, acc, fuel) == Ok(r)
  }

  /** When the nested calls report termination, the level's own request is not looked at. */
  lemma NestedTerminatedSkipsRequest<P(!new), D(!new)>(e: Engine<P, D>, d: D, level: nat, count: nat, req: Option<StateId>, fuel: nat, n: Step<P, D>)
    requires level < |e.stack| && count == |e.stack| - level - 1
    requires NestedOk(e, d, level + 1, count, false, fuel, n) && n.terminate
    ensures AfterSteadyOk(e, d, level, req, fuel, n)
  {
  }

  /**
    One `iterate` call at `level`, split at the `steady` call: `e2`, `d2` and
    `req` are the engine, data and request right after it.
   */
  lemma SplitLevel<P(!new), D(!new)>(e: Engine<P, D>, d: D, level: nat, fuel: nat) returns (e2: Engine<P, D>, d2: D, req: Option<StateId>, inner: nat)
    requires Valid(e) && level < |e.stack| && 0 < fuel
    ensures e2 == AfterSteadyAt(e, d, level) && d2 == SteadyAt(e, d, level).data && req == SteadyAt(e, d, level).request
    ensures Valid(e2) && e2.stack == e.stack && e2.trace == e.trace + [Steady(e.stack[level], req)] && inner == fuel - 1
    ensures forall r :: AfterSteadyOk(e2, d2, level, req, inner, r) ==> IterateOk(e, d, level, fuel, r)
  {
    e2, d2, req, inner := AfterSteadyAt(e, d, level), SteadyAt(e, d, level).data, SteadyAt(e, d, level).request, fuel - 1;
    IterateUnfoldAt(e, d, level, fuel, inner);
  }

  /** `SplitLevel` for a call known to return `r`, without naming the intermediate engine. */
  lemma SplitOk<P(!new), D(!new)>(e: Engine<P, D>, d: D, level: nat, fuel: nat, r: Step<P, D>) returns (e2: Engine<P, D>, d2: D, req: Option<StateId>, inner: nat)
    requires Valid(e) && level < |e.stack| && IterateOk(e, d, level, fuel, r)
    ensures inner == fuel - 1 && Valid(e2) && e2.stack == e.stack && e2.trace == e.trace + [Steady(e.stack[level], req)]
    ensures AfterSteadyOk(e2, d2, level, req, inner, r)
  {
    FuelLeft(e, d, level, fuel);
    e2, d2, req, inner := AfterSteadyAt(e, d, level), SteadyAt(e, d, level).data, SteadyAt(e, d, level).request, fuel - 1;
    IterateUnfoldAt(e, d, level, fuel, inner);
  }

  /** `TopTerminates`, summarised: the stack shrinks, termination is reported, and the log grows by the call and the exit. */
  lemma TopTerminatesStep<P(!new), D(!new)>(e: Engine<P, D>, d: D, fuel: nat, t: StateId) returns (n: Step<P, D>)
    requires Valid(e) && |e.stack| == 2 && 0 < fuel
    requires SteadyAt(e, d, 1).request == Some(t) && t.value == 0
    ensures IterateOk(e, d, 1, fuel, n) && n.terminate && n.engine.stack == [e.stack[0]]
    ensures n.engine.trace == e.trace + [Steady(e.stack[1], Some(t)), Exit(e.stack[1])]
  {
    TopTerminates(e, d, fuel, t);
    n := IterateLevel(e, d, 1, fuel).value;
    TraceTwo(e.trace, Steady(e.stack[1], Some(t)), Exit(e.stack[1]), AfterSteadyAt(e, d, 1).trace, n.engine.trace);
  }

  /** After the outer `steady` on a two-deep stack, an inner request of value 0 ends the call, whatever `req` is. */
  lemma InnerTerminates<P(!new), D(!new)>(e: Engine<P, D>, d: D, req: Option<StateId>, fuel: nat, t: StateId) returns (n: Step<P, D>)
    requires Valid(e) && |e.stack| == 2 && 0 < fuel
    requires SteadyAt(e, d, 1).request == Some(t) && t.value == 0
    ensures AfterSteadyOk(e, d, 0, req, fuel, n) && n.terminate && n.engine.stack == [e.stack[0]]
    ensures n.engine.trace == e.trace + [Steady(e.stack[1], Some(t)), Exit(e.stack[1])]
  {
    n := TopTerminatesStep(e, d, fuel, t);
    NestedOnce(e, d, 1, false, fuel, n);
    NestedTerminatedSkipsRequest(e, d, 0, 1, req, fuel, n);
  }

  /**
    A nested termination wins: on a two-deep stack whose inner state requests a
    target of value 0, the inner state exits, the outer state stays active, the
    call reports termination, and the outer state's own request is dropped,
    whatever it was.
   */
  lemma NestedTerminationWins<P(!new), D(!new)>(e: Engine<P, D>, d: D, fuel: nat, t: StateId)
    requires Valid(e) && |e.stack| == 2 && 2 <= fuel
    requires SteadyAt(AfterSteadyAt(e, d, 0), SteadyAt(e, d, 0).data, 1).request == Some(t) && t.value == 0
    ensures IterateLevel(e, d, 0, fuel).Ok?
    ensures var r := IterateLevel(e, d, 0, fuel).value;
      && r.terminate
      && r.engine.stack == [e.stack[0]]
      && r.engine.trace == e.trace + [Steady(e.stack[0], SteadyAt(e, d, 0).request), Steady(e.stack[1], Some(t)), Exit(e.stack[1])]
  {
    var e2, d2, req, inner := SplitLevel(e, d, 0, fuel);
    var n := InnerTerminates(e2, d2, req, inner, t);
    assert IterateOk(e, d, 0, fuel, n);
    TerminatedTrace(e.trace, e2.trace, n.engine.trace, e.stack, req, t, n, IterateLevel(e, d, 0, fuel));
  }

  /** The trace arithmetic of `NestedTerminationWins`, away from the engine's definitions. */
  lemma TerminatedTrace<P, D>(t0: seq<Event>, t1: seq<Event>, t2: seq<Event>, st: seq<StateId>, req: Option<StateId>, t: StateId, n: Step<P, D>, r: Result<Step<P, D>, Fault>)
    requires |st| == 2 && t1 == t0 + [Steady(st[0], req)] && t2 == t1 + [Steady(st[1], Some(t)), Exit(st[1])]
    requires r == Ok(n) && n.engine.trace == t2 && n.terminate && n.engine.stack == [st[0]]
    ensures r.Ok? && r.value.terminate && r.value.engine.stack == [st[0]]
    ensures r.value.engine.trace == t0 + [Steady(st[0], req), Steady(st[1], Some(t)), Exit(st[1])]
  {
    TraceThree(t0, Steady(st[0], req), Steady(st[1], Some(t)), Exit(st[1]), t1, t2);
  }

  /**
    The repeated nested call: on a three-deep stack where no `steady` requests
    anything, the nested call at level 1 runs twice (once per index above level
    0), so the two inner states each get two `steady` calls, outer first.
   */
  lemma SilentDepthThree<P(!new), D(!new)>(e: Engine<P, D>, d: D, fuel: nat, r: Step<P, D>)
    requires Valid(e) && |e.stack| == 3
    requires IterateOk(e, d, 0, fuel, r) && NoRequest(r.engine.trace, |e.trace|)
    ensures r.engine.stack == e.stack && !r.terminate
    ensures SteadyIds(r.engine.trace[|e.trace|..]) == [e.stack[0], e.stack[1], e.stack[2], e.stack[1], e.stack[2]]
  {
    var e2, d2, req, inner := SplitOk(e, d, 0, fuel, r);
    SilentTail(e2, d2, req, inner, r, e.trace, e.stack);
  }

  /** A call that succeeds had call depth left. */
  lemma FuelLeft<P(!new), D(!new)>(e: Engine<P, D>, d: D, level: nat, fuel: nat)
    requires IterateLevel(e, d, level, fuel).Ok?
    ensures 0 < fuel
  {
  }

  /** The part of `SilentDepthThree` after the outer `steady`: the two nested calls at level 1. */
  lemma SilentTail<P(!new), D(!new)>(e2: Engine<P, D>, d: D, req: Option<StateId>, fuel: nat, r: Step<P, D>, t: seq<Event>, st: seq<StateId>)
    requires Valid(e2) && e2.stack == st && |st| == 3 && e2.trace == t + [Steady(st[0], req)]
    requires AfterSteadyOk(e2, d, 0, req, fuel, r) && NoRequest(r.engine.trace, |t|)
    ensures r.engine.stack == st && !r.terminate
    ensures SteadyIds(r.engine.trace[|t|..]) == [st[0], st[1], st[2], st[1], st[2]]
  {
    assert r.engine.trace[|t|] == e2.trace[|t|];
    assert req.None?;
    assert NestedOk(e2, d, 1, 2, false, fuel, r);
    NoRequestFrom(r.engine.trace, |t|, |e2.trace|);
    SilentTwice(e2, d, fuel, r);
    SteadyThenPairs(t, Steady(st[0], req), r.engine.trace, st[1], st[2]);
  }

  /** Two silent nested calls at level 1 of a three-deep stack. */
  lemma SilentTwice<P(!new), D(!new)>(e: Engine<P, D>, d: D, fuel: nat, r: Step<P, D>)
    requires Valid(e) && |e.stack| == 3
    requires NestedOk(e, d, 1, 2, false, fuel, r) && NoRequest(r.engine.trace, |e.trace|)
    ensures r.engine.stack == e.stack && !r.terminate
    ensures SteadyIds(r.engine.trace[|e.trace|..]) == [e.stack[1], e.stack[2], e.stack[1], e.stack[2]]
  {
    var first := NestedStep(e, d, 1, 2, false, fuel, r);
    SilentOnce(e, d, fuel, first, r.engine.trace);
    SilentLast(first.engine, first.data, first.terminate, fuel, r, |e.trace|);
    SteadyPairsJoin(e.trace, first.engine.trace, r.engine.trace, e.stack[1], e.stack[2]);
  }

  /**
    One silent call at level 1 of a three-deep stack: both inner states get a
    `steady`. Silence is read off `u`, any log that extends the call's own.
   */
  lemma SilentOnce<P(!new), D(!new)>(e: Engine<P, D>, d: D, fuel: nat, n: Step<P, D>, u: seq<Event>)
    requires Valid(e) && |e.stack| == 3
    requires IterateOk(e, d, 1, fuel, n) && n.engine.trace <= u && NoRequest(u, |e.trace|)
    ensures Valid(n.engine) && n.engine.stack == e.stack && e.trace <= n.engine.trace
    ensures SteadyIds(n.engine.trace[|e.trace|..]) == [e.stack[1], e.stack[2]]
  {
    NoRequestPrefix(n.engine.trace, u, |e.trace|);
  }

  /** The last of the nested calls, from the engine the first one left; silence holds from `from` on. */
  lemma SilentLast<P(!new), D(!new)>(e: Engine<P, D>, d: D, acc: bool, fuel: nat, r: Step<P, D>, from: nat)
    requires Valid(e) && |e.stack| == 3
    requires NestedOk(e, d, 1, 1, acc, fuel, r) && from <= |e.trace| && NoRequest(r.engine.trace, from)
    ensures r.engine.stack == e.stack && !r.terminate && e.trace <= r.engine.trace
    ensures SteadyIds(r.engine.trace[|e.trace|..]) == [e.stack[1], e.stack[2]]
  {
    NoRequestFrom(r.engine.trace, from, |e.trace|);
    var n := NestedStep(e, d, 1, 1, acc, fuel, r);
    assert r == n;
    SilentOnce(e, d, fuel, n, r.engine.trace);
  }

  // Proof helpers: one-step unfoldings of the engine's functions and sequence identities that the lemmas above use.

  /** One `iterate` call at `level`, unfolded: the `steady` call, then the nested calls and the request. */
  lemma IterateUnfold<P(!new), D(!new)>(e: Engine<P, D>, d: D, level: nat, fuel: nat)
    requires Valid(e) && level < |e.stack| && 0 < fuel
    ensures IterateLevel(e, d, level, fuel) ==
      AfterSteady(AfterSteadyAt(e, d, level), SteadyAt(e, d, level).data, level, SteadyAt(e, d, level).request, fuel - 1)
  {
    assert StateInstance(e, e.stack[level]) == Ok((e, e.instances[e.stack[level]]));
  }

  /** `IterateUnfold` with the remaining call depth `inner` named. */
  lemma IterateUnfoldAt<P(!new), D(!new)>(e: Engine<P, D>, d: D, level: nat, fuel: nat, inner: nat)
    requires Valid(e) && level < |e.stack| && fuel == inner + 1
    ensures IterateLevel(e, d, level, fuel) ==
      AfterSteady(AfterSteadyAt(e, d, level), SteadyAt(e, d, level).data, level, SteadyAt(e, d, level).request, inner)
  {
    IterateUnfold(e, d, level, inner + 1);
  }

  /** The nested loop, unfolded by one call. */
  lemma NestedUnfold<P(!new), D(!new)>(e: Engine<P, D>, d: D, level: nat, count: nat, acc: bool, fuel: nat)
    requires 0 < count && IterateLevel(e, d, level, fuel).Ok?
    ensures var n := IterateLevel(e, d, level, fuel).value;
      Nested(e, d, level, count, acc, fuel) == Nested(n.engine, n.data, level, count - 1, n.terminate, fuel)
  {
  }

  /** A nested loop that succeeds made a first call that succeeded. */
  lemma NestedFirstOk<P(!new), D(!new)>(e: Engine<P, D>, d: D, level: nat, count: nat, acc: bool, fuel: nat)
    requires 0 < count && Nested(e, d, level, count, acc, fuel).Ok?
    ensures IterateLevel(e, d, level, fuel).Ok?
  {
  }

  /** A nested loop of one call gives that call's result. */
  lemma NestedOnce<P(!new), D(!new)>(e: Engine<P, D>, d: D, level: nat, acc: bool, fuel: nat, n: Step<P, D>)
    requires IterateOk(e, d, level, fuel, n)
    ensures NestedOk(e, d, level, 1, acc, fuel, n)
  {
    assert Nested(n.engine, n.data, level, 0, n.terminate, fuel) == Ok(n);
  }

  /**
    A nested loop that returns normally, split at its first call: that call
    returned normally with `n`, and the remaining calls run from where it left off.
   */
  lemma NestedStep<P(!new), D(!new)>(e: Engine<P, D>, d: D, level: nat, count: nat, acc: bool, fuel: nat, r: Step<P, D>) returns (n: Step<P, D>)
    requires 0 < count && NestedOk(e, d, level, count, acc, fuel, r)
    ensures IterateOk(e, d, level, fuel, n) && NestedOk(n.engine, n.data, level, count - 1, n.terminate, fuel, r)
    ensures n.engine.trace <= r.engine.trace
  {
    NestedFirstOk(e, d, level, count, acc, fuel);
    NestedUnfold(e, d, level, count, acc, fuel);
    n := IterateLevel(e, d, level, fuel).value;
  }

  /** The first element of a non-empty sequence, as a prefix. */
  lemma TakeOne(s: seq<StateId>)
    requires 0 < |s|
    ensures s[..1] == [s[0]]
  {
  }

  /** Two log extensions in a row, as one. */
  lemma TraceTwo(t: seq<Event>, x: Event, y: Event, t1: seq<Event>, t2: seq<Event>)
    requires t1 == t + [x] && t2 == t1 + [y]
    ensures t2 == t + [x, y]
  {
  }

  /** Two log extensions in a row, as one. */
  lemma TraceThree(t: seq<Event>, x: Event, y: Event, z: Event, t1: seq<Event>, t2: seq<Event>)
    requires t1 == t + [x] && t2 == t1 + [y, z]
    ensures t2 == t + [x, y, z]
  {
  }

  /** The `steady` calls logged after `t`, when the first event after `t` is the `steady` call `ev`. */
  lemma SteadyThenRest(t: seq<Event>, ev: Event, u: seq<Event>)
    requires ev.Steady? && t + [ev] <= u
    ensures SteadyIds(u[|t|..]) == [ev.id] + SteadyIds(u[|t| + 1..])
  {
    assert u[|t|..] == [ev] + u[|t| + 1..];
    SteadyIdsAppend([ev], u[|t| + 1..]);
  }

  /** `SteadyThenRest` when the rest is two pairs of `steady` calls on `a` and `b`. */
  lemma SteadyThenPairs(t: seq<Event>, ev: Event, u: seq<Event>, a: StateId, b: StateId)
    requires ev.Steady? && t + [ev] <= u && SteadyIds(u[|t| + 1..]) == [a, b, a, b]
    ensures SteadyIds(u[|t|..]) == [ev.id, a, b, a, b]
  {
    SteadyThenRest(t, ev, u);
  }

  /** `NoRequest` from a position implies it from any later one. */
  lemma NoRequestFrom(t: seq<Event>, from: nat, later: nat)
    requires from <= later && NoRequest(t, from)
    ensures NoRequest(t, later)
  {
  }

  /** Two logged pairs of `steady` calls on `a` and `b`, one after the other. */
  lemma SteadyPairsJoin(t0: seq<Event>, t1: seq<Event>, t2: seq<Event>, a: StateId, b: StateId)
    requires t0 <= t1 <= t2
    requires SteadyIds(t1[|t0|..]) == [a, b] && SteadyIds(t2[|t1|..]) == [a, b]
    ensures SteadyIds(t2[|t0|..]) == [a, b, a, b]
  {
    SteadyIdsJoin(t0, t1, t2);
  }
}

=== FILE: engine_success.dfy ===
/**
  When the engine's calls return normally: entering a state whose default-child
  chain stays in the chart and ends within the recursion budget, and honouring
  a request for such a target.
 */
module EngineSuccess {
  import opened Common
  import opened FiniteState
  import opened StateChart
  import opened StateChartEngine

  /** A state class whose `entry`, called without data, never raises. */
  ghost predicate BareEntryTotal<P(!new), D(!new)>(cls: StateClass<P, D>) {
    forall f: P :: cls.bareEntry(f).Some?
  }

  /**
    The default-child chain below `s` stays in the chart, reaches a state
    without a default child within `depth` further steps, and every child on
    it can be entered without data.
   */
  ghost predicate Drillable<P(!new), D(!new)>(c: Chart<P, D>, s: StateId, depth: nat)
    decreases depth
  {
    && s in c.info
    && (c.info[s].defaultChild.Some? ==>
          var child := c.info[s].defaultChild.value;
          0 < depth && child in c.info && BareEntryTotal(c.info[child].stateClass) && Drillable(c, child, depth - 1))
  }

  /**
    `_set_state` returns normally when the drill-down chain from `s` fits in
    the recursion budget, stays in the chart and meets no raising `entry`.
   */
  lemma {:induction false} SetStateSucceeds<P(!new), D(!new)>(e: Engine<P, D>, s: StateId, data: Option<D>, fuel: nat)
    requires 0 < fuel && Drillable(e.chart, s, fuel - 1)
    requires data.None? ==> BareEntryTotal(e.chart.info[s].stateClass)
    decreases fuel
    ensures SetState(e, s, data, fuel).Ok?
  {
    var (e1, fields0) := StateInstance(e, s).value;
    var cls := e.chart.info[s].stateClass;
    if data.None? {
      assert cls.bareEntry(fields0).Some?;
    }
    var (fields, data1) := EnterHook(cls, fields0, data).value;
    var e2 := e1.(instances := e1.instances[s := fields], stack := e1.stack + [s], trace := e1.trace + [Entry(s)]);
    if e.chart.info[s].defaultChild.Some? {
      SetStateSucceeds(e2, e.chart.info[s].defaultChild.value, None, fuel - 1);
    }
  }

  /** `init` returns normally under the same conditions, with `s` itself entered without data. */
  lemma InitSucceeds<P(!new), D(!new)>(e: Engine<P, D>, s: StateId, fuel: nat)
    requires 0 < fuel && Drillable(e.chart, s, fuel - 1) && BareEntryTotal(e.chart.info[s].stateClass)
    ensures Init(e, s, fuel).Ok?
  {
    SetStateSucceeds(e, s, None, fuel);
  }

  /**
    A request at `level` of a valid engine is honoured normally when its
    target terminates, or when the target's drill-down can be entered.
   */
  lemma ApplySucceeds<P(!new), D(!new)>(e: Engine<P, D>, d: D, level: nat, target: StateId, fuel: nat)
    requires Valid(e) && level < |e.stack|
    requires target.value != 0 ==> 0 < fuel && Drillable(e.chart, target, fuel - 1)
    ensures ApplyRequest(e, d, level, target, fuel).Ok?
  {
    var (e1, d1) := ExitFrom(e, d, level).value;
    if target.value != 0 {
      SetStateSucceeds(e1, target, Some(d1), fuel);
    }
  }
}

=== FILE: finite_state.dfy ===
/**
  The behaviour of one state of a chart: Python's `FiniteState` base class and
  the shape every concrete state class shares.
 */
module FiniteState {
  import opened Common

  /** A member of an application's state enumeration: its name and its ordinal value. */
  datatype StateId = StateId(name: string, value: int)

  /** One row of a transition table: the candidate state and the check guarding it. */
  datatype Transition<!P, !D> = Transition(stateID: StateId, check: (P, D) -> bool)

  /**
    A state class. `P` is the type of a state instance's private fields and `D`
    the type of the shared application data.
    - `create` is the constructor (which may read the evergreen variables captured in it);
    - `entry`, `tick` and `exit` may update the private fields and the data;
    - `bareEntry` is `entry` called with `current_data=None`: it can only touch
      the private fields, and it yields `None` when the hook raises on the missing data;
    - `transitions` is the table installed by `set_transitions`, in priority order.
    Every state's `steady` is `tick` followed by `transitioning`.
   */
  datatype StateClass<!P, !D> = StateClass(
    create: StateId -> P,
    entry: (P, D) -> (P, D),
    bareEntry: P -> Option<P>,
    tick: (P, D) -> (P, D),
    transitions: seq<Transition<P, D>>,
    exit: (P, D) -> (P, D))

  /** The check of `t` holds for these private fields and data. */
  predicate Fires<P, D>(t: Transition<P, D>, fields: P, data: D) {
    t.check(fields, data)
  }

  /**
    `transitioning`: the target of the first table row, in list order, whose
    check holds, or `None` when no check holds.
   */
  function Transitioning<P, D>(ts: seq<Transition<P, D>>, fields: P, data: D): (r: Option<StateId>)
    ensures r.None? <==> forall j :: 0 <= j < |ts| ==> !Fires(ts[j], fields, data)
    ensures r.Some? ==> exists i :: FirstAt(ts, t => Fires(t, fields, data), i) && r.value == ts[i].stateID
  {
    match FirstIndex(ts, t => Fires(t, fields, data), 0)
    case None => None
    case Some(i) => Some(ts[i].stateID)
  }

  /** The table row whose target `transitioning` returns. */
  lemma TransitioningPicksFirst<P, D>(ts: seq<Transition<P, D>>, fields: P, data: D, i: nat)
    requires FirstAt(ts, t => Fires(t, fields, data), i)
    ensures Transitioning(ts, fields, data) == Some(ts[i].stateID)
  {
    var k := FirstIndex(ts, t => Fires(t, fields, data), 0);
    assert k.Some? && k.value == i;
  }

  /**
    Priority: when row `i` fires, `transitioning` returns the target of some row
    at or before `i`, never one after it.
   */
  lemma EarlierRowWins<P, D>(ts: seq<Transition<P, D>>, fields: P, data: D, i: nat)
    requires i < |ts| && Fires(ts[i], fields, data)
    ensures exists k :: 0 <= k <= i && Transitioning(ts, fields, data) == Some(ts[k].stateID)
  {
    var k := FirstIndex(ts, t => Fires(t, fields, data), 0);
    assert k.Some? && k.value <= i;
    TransitioningPicksFirst(ts, fields, data, k.value);
  }

  /** The result of `steady`: the requested target, the updated private fields and data. */
  datatype SteadyResult<P, D> = SteadyResult(request: Option<StateId>, fields: P, data: D)

  /** `steady`: the class's per-tick work followed by `transitioning` on the updated values. */
  function SteadyCall<P, D>(cls: StateClass<P, D>, fields: P, data: D): (r: SteadyResult<P, D>)
  {
    var (f, d) := cls.tick(fields, data);
    SteadyResult(Transitioning(cls.transitions, f, d), f, d)
  }

  /** A state class whose `steady` never requests a transition, whatever its fields and data. */
  ghost predicate Silent<P(!new), D(!new)>(cls: StateClass<P, D>) {
    forall f: P, x: D :: QuietOn(cls, f, x)
  }

  /** The `steady` call of `cls` on these fields and data requests nothing. */
  ghost predicate QuietOn<P, D>(cls: StateClass<P, D>, f: P, x: D) {
    SteadyCall(cls, f, x).request.None?
  }
}

=== FILE: nested_requests.dfy ===
/**
  Requests made at several levels of one `iterate` call: a level's own request
  is honoured after its nested level's, and a termination reported by one
  nested call is overwritten by the next.
 */
module NestedRequests {
  import opened Common
  import opened FiniteState
  import opened StateChart
  import opened StateChartEngine
  import opened EngineRuns

  /** A state class whose `steady` always requests `t`. */
  ghost predicate AlwaysRequests<P(!new), D(!new)>(cls: StateClass<P, D>, t: StateId) {
    forall f: P, x: D :: Transitioning(cls.transitions, f, x) == Some(t)
  }

  /** The `steady` call on a silent state's object requests nothing. */
  lemma SilentSteady<P(!new), D(!new)>(e: Engine<P, D>, d: D, level: nat)
    requires Valid(e) && level < |e.stack| && Silent(e.chart.info[e.stack[level]].stateClass)
    ensures SteadyAt(e, d, level).request.None?
  {
    var s := e.stack[level];
    assert QuietOn(e.chart.info[s].stateClass, e.instances[s], d);
  }

  /** The `steady` call on the object of a state that always requests `t` requests `t`. */
  lemma RequestingSteady<P(!new), D(!new)>(e: Engine<P, D>, d: D, level: nat, t: StateId)
    requires Valid(e) && level < |e.stack| && AlwaysRequests(e.chart.info[e.stack[level]].stateClass, t)
    ensures SteadyAt(e, d, level).request == Some(t)
  {
    var s := e.stack[level];
    var (f, x) := e.chart.info[s].stateClass.tick(e.instances[s], d);
    assert Transitioning(e.chart.info[s].stateClass.transitions, f, x) == Some(t);
  }

  /** A chart state without a default child. */
  ghost predicate Leaf<P(!new), D(!new)>(c: Chart<P, D>, s: StateId) {
    s in c.info && c.info[s].defaultChild.None?
  }

  /** The drill-down from a state without a default child is that state alone. */
  lemma DrilledLeafOnly<P(!new), D(!new)>(c: Chart<P, D>, base: seq<StateId>, s: StateId, stack: seq<StateId>)
    requires DrilledFrom(c, base, s, stack) && Leaf(c, s)
    ensures stack == base + [s]
  {
    if |base| < |stack| - 1 {
      ChainLink(c, base, s, stack, |base|);
    }
    assert stack == stack[..|base|] + [stack[|base|]];
  }

  /** Every state of a drill-down but the last has a default child. */
  lemma ChainLink<P(!new), D(!new)>(c: Chart<P, D>, base: seq<StateId>, s: StateId, stack: seq<StateId>, i: nat)
    requires DrilledFrom(c, base, s, stack) && |base| <= i < |stack| - 1
    ensures c.info[stack[i]].defaultChild.Some?
  {
    assert c.info[stack[i]].defaultChild == Some(stack[i + 1]);
  }

  /**
    Honouring a request for a leaf of nonzero value: the states from `level`
    up exit innermost-first, the target alone is entered, and the call goes on.
   */
  lemma RequestLeaf<P(!new), D(!new)>(e: Engine<P, D>, d: D, level: nat, t: StateId, fuel: nat)
    requires Valid(e) && level < |e.stack| && Leaf(e.chart, t) && t.value != 0 && 0 < fuel
    ensures ApplyRequest(e, d, level, t, fuel).Ok?
    ensures var r := ApplyRequest(e, d, level, t, fuel).value;
      && !r.terminate
      && r.engine.stack == e.stack[..level] + [t]
      && r.engine.trace == e.trace + Exits(e.stack[level..]) + [Entry(t)]
      && Valid(r.engine)
  {
    var x := ExitFrom(e, d, level).value;
    EnterLeaf(x.0, t, x.1, fuel);
    var r := ApplyRequest(e, d, level, t, fuel).value;
    DrilledLeafOnly(e.chart, e.stack[..level], t, r.engine.stack);
    assert r.engine.stack[level..] == [t];
  }

  /** When the nested calls do not terminate, the level's own request is honoured on the engine they left. */
  lemma NestedThenRequest<P(!new), D(!new)>(e: Engine<P, D>, d: D, level: nat, count: nat, t: StateId, fuel: nat, n: Step<P, D>)
    requires level < |e.stack| && count == |e.stack| - level - 1
    requires NestedOk(e, d, level + 1, count, false, fuel, n) && !n.terminate && level < |n.engine.stack|
    ensures AfterSteady(e, d, level, Some(t), fuel) == ApplyRequest(n.engine, n.data, level, t, fuel)
  {
    var inner := level + 1;
    assert Nested(e, d, inner, count, false, fuel) == Ok(n);
    assert AfterSteady(e, d, level, Some(t), fuel) == ApplyRequest(n.engine, n.data, level, t, fuel);
  }

  /** The innermost state requests nothing: `iterate` logs its `steady` and changes nothing else. */
  lemma LeafSilent<P(!new), D(!new)>(e: Engine<P, D>, d: D, level: nat, fuel: nat) returns (n: Step<P, D>)
    requires Valid(e) && |e.stack| == level + 1 && 0 < fuel && SteadyAt(e, d, level).request.None?
    ensures IterateOk(e, d, level, fuel, n) && !n.terminate && Valid(n.engine)
    ensures n.engine.chart == e.chart && n.engine.stack == e.stack
    ensures n.engine.trace == e.trace + [Steady(e.stack[level], None)]
  {
    IterateUnfold(e, d, level, fuel);
    AfterSteadyLeaf(AfterSteadyAt(e, d, level), SteadyAt(e, d, level).data, level, None, fuel - 1);
    n := Step(AfterSteadyAt(e, d, level), SteadyAt(e, d, level).data, false);
  }

  /** The innermost state requests a target of value 0: it exits and termination is reported. */
  lemma LeafTerminates<P(!new), D(!new)>(e: Engine<P, D>, d: D, level: nat, fuel: nat, t: StateId) returns (n: Step<P, D>)
    requires Valid(e) && |e.stack| == level + 1 && 0 < fuel
    requires SteadyAt(e, d, level).request == Some(t) && t.value == 0
    ensures IterateOk(e, d, level, fuel, n) && n.terminate && Valid(n.engine)
    ensures n.engine.chart == e.chart && n.engine.stack == e.stack[..level]
    ensures n.engine.trace == e.trace + [Steady(e.stack[level], Some(t)), Exit(e.stack[level])]
  {
    IterateUnfold(e, d, level, fuel);
    var st := SteadyAt(e, d, level);
    var e2 := AfterSteadyAt(e, d, level);
    AfterSteadyLeaf(e2, st.data, level, st.request, fuel - 1);
    ExitTop(e2, st.data);
    ApplyTerminal(e2, st.data, level, t, fuel - 1);
    n := IterateLevel(e, d, level, fuel).value;
    TraceTwo(e.trace, Steady(e.stack[level], Some(t)), Exit(e.stack[level]), e2.trace, n.engine.trace);
  }

  /** At the innermost level, a request for a leaf of nonzero value: that state makes way for the target. */
  lemma LeafRequest<P(!new), D(!new)>(e: Engine<P, D>, d: D, level: nat, t: StateId, fuel: nat) returns (m: Step<P, D>)
    requires Valid(e) && |e.stack| == level + 1 && Leaf(e.chart, t) && t.value != 0 && 0 < fuel
    ensures AfterSteadyOk(e, d, level, Some(t), fuel, m) && !m.terminate && Valid(m.engine)
    ensures m.engine.chart == e.chart && m.engine.stack == e.stack[..level] + [t]
    ensures m.engine.trace == e.trace + [Exit(e.stack[level]), Entry(t)]
  {
    AfterSteadyLeaf(e, d, level, Some(t), fuel);
    RequestLeaf(e, d, level, t, fuel);
    m := ApplyRequest(e, d, level, t, fuel).value;
    assert e.stack[level..] == [e.stack[level]];
    ExitsOne(e.stack[level]);
  }

  /** The innermost request honoured at once on a two-deep stack: the inner state makes way for `t`. */
  lemma InnerRequest<P(!new), D(!new)>(e: Engine<P, D>, d: D, fuel: nat, t: StateId) returns (m: Step<P, D>)
    requires Valid(e) && |e.stack| == 2 && 1 < fuel
    requires SteadyAt(e, d, 1).request == Some(t) && Leaf(e.chart, t) && t.value != 0
    ensures IterateOk(e, d, 1, fuel, m) && !m.terminate && Valid(m.engine)
    ensures m.engine.chart == e.chart && m.engine.stack == [e.stack[0], t]
    ensures m.engine.trace == e.trace + [Steady(e.stack[1], Some(t)), Exit(e.stack[1]), Entry(t)]
  {
    var e3, d3, req, inner := SplitLevel(e, d, 1, fuel);
    m := LeafRequest(e3, d3, 1, t, inner);
    assert IterateOk(e, d, 1, fuel, m);
    InnerShape(e.stack, t, e.trace, e3.trace, m.engine.stack, m.engine.trace);
  }

  /** The outer request honoured on the engine the inner request left. */
  lemma OuterRequest<P(!new), D(!new)>(e: Engine<P, D>, d: D, fuel: nat, t: StateId) returns (fin: Step<P, D>)
    requires Valid(e) && |e.stack| == 2 && Leaf(e.chart, t) && t.value != 0 && 0 < fuel
    ensures ApplyRequest(e, d, 0, t, fuel) == Ok(fin) && !fin.terminate
    ensures fin.engine.stack == [t]
    ensures fin.engine.trace == e.trace + [Exit(e.stack[1]), Exit(e.stack[0]), Entry(t)]
  {
    RequestLeaf(e, d, 0, t, fuel);
    fin := ApplyRequest(e, d, 0, t, fuel).value;
    TwoDeep(e.stack, t, e.trace, fin.engine.stack, fin.engine.trace);
  }

  /** After the outer state's `steady` asked for `t0`: the nested call runs, then `t0` replaces both states. */
  lemma OuterAfterInner<P(!new), D(!new)>(e: Engine<P, D>, d: D, fuel: nat, t0: StateId, t1: StateId) returns (fin: Step<P, D>)
    requires Valid(e) && |e.stack| == 2 && 1 < fuel
    requires Leaf(e.chart, t0) && t0.value != 0
    requires SteadyAt(e, d, 1).request == Some(t1) && Leaf(e.chart, t1) && t1.value != 0
    ensures AfterSteadyOk(e, d, 0, Some(t0), fuel, fin) && !fin.terminate && fin.engine.stack == [t0]
    ensures fin.engine.trace == e.trace + [Steady(e.stack[1], Some(t1)), Exit(e.stack[1]), Entry(t1)] + [Exit(t1), Exit(e.stack[0]), Entry(t0)]
  {
    var m := InnerRequest(e, d, fuel, t1);
    NestedOnce(e, d, 1, false, fuel, m);
    fin := OuterRequest(m.engine, m.data, fuel, t0);
    NestedThenRequest(e, d, 0, 1, t0, fuel, m);
  }

  /**
    A level's own request is honoured after its nested level's: on a two-deep
    stack where the outer state requests `t0` and then the inner one requests
    `t1`, both leaves of nonzero value, the inner state makes way for `t1`, and
    then `t1` and the outer state exit and `t0` is entered. The call goes on.
   */
  lemma InnerThenOuterRequest<P(!new), D(!new)>(e: Engine<P, D>, d: D, fuel: nat, t0: StateId, t1: StateId)
    requires Valid(e) && |e.stack| == 2 && e.stack[0] != e.stack[1] && 2 < fuel
    requires SteadyAt(e, d, 0).request == Some(t0) && Leaf(e.chart, t0) && t0.value != 0
    requires SteadyAt(e, SteadyAt(e, d, 0).data, 1).request == Some(t1) && Leaf(e.chart, t1) && t1.value != 0
    ensures IterateLevel(e, d, 0, fuel).Ok?
    ensures var r := IterateLevel(e, d, 0, fuel).value;
      && !r.terminate
      && r.engine.stack == [t0]
      && r.engine.trace == e.trace + [Steady(e.stack[0], Some(t0)), Steady(e.stack[1], Some(t1)), Exit(e.stack[1]), Entry(t1), Exit(t1), Exit(e.stack[0]), Entry(t0)]
  {
    var e2, d2, req, inner := SplitLevel(e, d, 0, fuel);
    OtherObjectKept(e, d, 0, 1, d2);
    var fin := OuterAfterInner(e2, d2, inner, t0, t1);
    assert IterateOk(e, d, 0, fuel, fin);
    TraceSeven(e.trace, Steady(e.stack[0], Some(t0)), Steady(e.stack[1], Some(t1)), Exit(e.stack[1]), Entry(t1), Exit(t1), Exit(e.stack[0]), Entry(t0),
      e2.trace, fin.engine.trace);
  }

  /** The `steady` call at one level leaves the object of a different state on the stack as it was. */
  lemma OtherObjectKept<P(!new), D(!new)>(e: Engine<P, D>, d: D, level: nat, other: nat, d1: D)
    requires Valid(e) && level < |e.stack| && other < |e.stack| && e.stack[level] != e.stack[other]
    ensures SteadyAt(AfterSteadyAt(e, d, level), d1, other) == SteadyAt(e, d1, other)
  {
    assert AfterSteadyAt(e, d, level).instances[e.stack[other]] == e.instances[e.stack[other]];
  }

  /** Three-deep: the middle state requests nothing and the innermost one terminates. */
  lemma MiddleSeesTermination<P(!new), D(!new)>(e: Engine<P, D>, d: D, fuel: nat, t: StateId) returns (a: Step<P, D>)
    requires Valid(e) && |e.stack| == 3 && 1 < fuel && t.value == 0
    requires Silent(e.chart.info[e.stack[1]].stateClass) && AlwaysRequests(e.chart.info[e.stack[2]].stateClass, t)
    ensures IterateOk(e, d, 1, fuel, a) && a.terminate && Valid(a.engine)
    ensures a.engine.chart == e.chart && a.engine.stack == e.stack[..2]
    ensures a.engine.trace == e.trace + [Steady(e.stack[1], None), Steady(e.stack[2], Some(t)), Exit(e.stack[2])]
  {
    SilentSteady(e, d, 1);
    var e3, d3, req, inner := SplitLevel(e, d, 1, fuel);
    RequestingSteady(e3, d3, 2, t);
    a := LeafTerminates(e3, d3, 2, inner, t);
    NestedOnce(e3, d3, 2, false, inner, a);
    NestedTerminatedSkipsRequest(e3, d3, 1, 1, req, inner, a);
    assert IterateOk(e, d, 1, fuel, a);
    TraceThree(e.trace, Steady(e.stack[1], None), Steady(e.stack[2], Some(t)), Exit(e.stack[2]), e3.trace, a.engine.trace);
  }

  /** The two nested calls at level 1 on a three-deep stack: the first terminates, the second runs the middle state alone and does not. */
  lemma TwoRounds<P(!new), D(!new)>(e: Engine<P, D>, d: D, fuel: nat, t: StateId) returns (b: Step<P, D>)
    requires Valid(e) && |e.stack| == 3 && 1 < fuel && t.value == 0
    requires Silent(e.chart.info[e.stack[1]].stateClass) && AlwaysRequests(e.chart.info[e.stack[2]].stateClass, t)
    ensures NestedOk(e, d, 1, 2, false, fuel, b) && !b.terminate && b.engine.stack == e.stack[..2]
    ensures b.engine.trace == e.trace + [Steady(e.stack[1], None), Steady(e.stack[2], Some(t)), Exit(e.stack[2])] + [Steady(e.stack[1], None)]
  {
    var a := MiddleSeesTermination(e, d, fuel, t);
    SilentSteady(a.engine, a.data, 1);
    b := LeafSilent(a.engine, a.data, 1, fuel);
    NestedTwice(e, d, 1, false, fuel, a, b);
  }

  /** After the outer state's silent `steady`: two nested calls at level 1, the first terminating and the second not. */
  lemma SilentOuterTwoRounds<P(!new), D(!new)>(e: Engine<P, D>, d: D, fuel: nat, t: StateId) returns (b: Step<P, D>)
    requires Valid(e) && |e.stack| == 3 && 1 < fuel && t.value == 0
    requires Silent(e.chart.info[e.stack[1]].stateClass) && AlwaysRequests(e.chart.info[e.stack[2]].stateClass, t)
    ensures AfterSteadyOk(e, d, 0, None, fuel, b) && !b.terminate && b.engine.stack == e.stack[..2]
    ensures b.engine.trace == e.trace + [Steady(e.stack[1], None), Steady(e.stack[2], Some(t)), Exit(e.stack[2])] + [Steady(e.stack[1], None)]
  {
    b := TwoRounds(e, d, fuel, t);
    AfterSilent(e, d, 0, fuel);
  }

  /**
    The nested loop keeps only the last call's termination flag: on a
    three-deep stack where only the innermost state requests a target of
    value 0, the first nested call exits it and reports termination, but the
    second nested call runs the middle state again on the shorter stack and
    reports none, so the whole call goes on with two states active.
   */
  lemma TerminationOverwritten<P(!new), D(!new)>(e: Engine<P, D>, d: D, fuel: nat, t: StateId)
    requires Valid(e) && |e.stack| == 3 && 2 < fuel && t.value == 0
    requires Silent(e.chart.info[e.stack[0]].stateClass) && Silent(e.chart.info[e.stack[1]].stateClass)
    requires AlwaysRequests(e.chart.info[e.stack[2]].stateClass, t)
    ensures IterateLevel(e, d, 0, fuel).Ok?
    ensures var r := IterateLevel(e, d, 0, fuel).value;
      && !r.terminate
      && r.engine.stack == e.stack[..2]
      && r.engine.trace == e.trace + [Steady(e.stack[0], None), Steady(e.stack[1], None), Steady(e.stack[2], Some(t)), Exit(e.stack[2]), Steady(e.stack[1], None)]
  {
    SilentSteady(e, d, 0);
    var e2, d2, req, inner := SplitLevel(e, d, 0, fuel);
    var b := SilentOuterTwoRounds(e2, d2, inner, t);
    assert IterateOk(e, d, 0, fuel, b);
    TraceFive(e.trace, Steady(e.stack[0], None), Steady(e.stack[1], None), Steady(e.stack[2], Some(t)), Exit(e.stack[2]), Steady(e.stack[1], None),
      e2.trace, b.engine.trace);
  }

  /**
    On a three-deep stack, the nested loop of level 0 calls `iterate` at level
    1 twice, a number fixed when the loop starts. When the middle state requests a target of
    value 0 and the innermost one requests nothing, the first call exits both
    of them; the second then asks for level 1 of a one-state stack and raises
    an index error.
   */
  lemma MiddleTerminationRaises<P(!new), D(!new)>(e: Engine<P, D>, d: D, fuel: nat, t: StateId)
    requires Valid(e) && |e.stack| == 3 && 1 < fuel && t.value == 0
    requires AlwaysRequests(e.chart.info[e.stack[1]].stateClass, t) && Silent(e.chart.info[e.stack[2]].stateClass)
    ensures Nested(e, d, 1, 2, false, fuel) == Err(IndexError(1))
  {
    RequestingSteady(e, d, 1, t);
    var e3, d3, req, inner := SplitLevel(e, d, 1, fuel);
    SilentSteady(e3, d3, 2);
    var n := LeafSilent(e3, d3, 2, inner);
    NestedOnce(e3, d3, 2, false, inner, n);
    NestedThenRequest(e3, d3, 1, 1, t, inner, n);
    ApplyTerminal(n.engine, n.data, 1, t, inner);
    var x := ExitFrom(n.engine, n.data, 1).value;
    var a := Step(x.0, x.1, true);
    assert AfterSteadyOk(e3, d3, 1, Some(t), inner, a);
    assert IterateOk(e, d, 1, fuel, a);
    NestedUnfold(e, d, 1, 2, false, fuel);
    assert IterateLevel(a.engine, a.data, 1, fuel) == Err(IndexError(1));
    assert Nested(a.engine, a.data, 1, 1, true, fuel) == Err(IndexError(1));
  }

  /** The same stack, from the top: the outer `iterate` call raises the index error, whatever the outer state requests. */
  lemma OuterRaises<P(!new), D(!new)>(e: Engine<P, D>, d: D, fuel: nat, t: StateId)
    requires Valid(e) && |e.stack| == 3 && 2 < fuel && t.value == 0
    requires AlwaysRequests(e.chart.info[e.stack[1]].stateClass, t) && Silent(e.chart.info[e.stack[2]].stateClass)
    ensures IterateLevel(e, d, 0, fuel) == Err(IndexError(1))
  {
    var e2 := AfterSteadyAt(e, d, 0);
    var inner: nat := fuel - 1;
    MiddleTerminationRaises(e2, SteadyAt(e, d, 0).data, inner, t);
    AfterNestedFails(e2, SteadyAt(e, d, 0).data, 0, SteadyAt(e, d, 0).request, inner, 1, 2, IndexError(1));
    IterateFails(e, d, 0, fuel, IndexError(1));
  }

  // Proof helpers: one-step unfoldings and log and stack identities that the lemmas above use.

  /** Without a request of its own, the rest of a level is its nested loop. */
  lemma AfterSilent<P(!new), D(!new)>(e: Engine<P, D>, d: D, level: nat, fuel: nat)
    requires level < |e.stack|
    ensures AfterSteady(e, d, level, None, fuel) == Nested(e, d, level + 1, |e.stack| - level - 1, false, fuel)
  {
    var n := Nested(e, d, level + 1, |e.stack| - level - 1, false, fuel);
    if n.Ok? {
      assert AfterSteady(e, d, level, None, fuel) == n;
    }
  }

  /** A failing nested loop makes the whole level fail the same way, whatever its own request. */
  lemma AfterNestedFails<P(!new), D(!new)>(e: Engine<P, D>, d: D, level: nat, req: Option<StateId>, fuel: nat, inner: nat, count: nat, f: Fault)
    requires level < |e.stack| && inner == level + 1 && count == |e.stack| - level - 1
    requires Nested(e, d, inner, count, false, fuel) == Err(f)
    ensures AfterSteady(e, d, level, req, fuel) == Err(f)
  {
  }

  /** A level whose part after the `steady` call fails makes its `iterate` call fail the same way. */
  lemma IterateFails<P(!new), D(!new)>(e: Engine<P, D>, d: D, level: nat, fuel: nat, f: Fault)
    requires Valid(e) && level < |e.stack| && 0 < fuel
    requires AfterSteady(AfterSteadyAt(e, d, level), SteadyAt(e, d, level).data, level, SteadyAt(e, d, level).request, fuel - 1) == Err(f)
    ensures IterateLevel(e, d, level, fuel) == Err(f)
  {
    IterateUnfold(e, d, level, fuel);
  }

  /** Two nested calls in a row, each on the engine the previous one left. */
  lemma NestedTwice<P(!new), D(!new)>(e: Engine<P, D>, d: D, level: nat, acc: bool, fuel: nat, a: Step<P, D>, b: Step<P, D>)
    requires IterateOk(e, d, level, fuel, a) && IterateOk(a.engine, a.data, level, fuel, b)
    ensures NestedOk(e, d, level, 2, acc, fuel, b)
  {
    NestedOnce(a.engine, a.data, level, a.terminate, fuel, b);
  }

  /** The exits of one- and two-state stacks, innermost first. */
  lemma ExitsOne(x: StateId)
    ensures Exits([x]) == [Exit(x)]
  {
  }

  lemma ExitsTwo(x: StateId, y: StateId)
    ensures Exits([x, y]) == [Exit(y), Exit(x)]
  {
    assert [x, y][..1] == [x];
    ExitsOne(x);
  }

  /** The stack and log after a request at level 0 of a two-deep stack for a state without a default child. */
  lemma TwoDeep(s: seq<StateId>, t: StateId, tr: seq<Event>, s2: seq<StateId>, tr2: seq<Event>)
    requires |s| == 2 && s2 == s[..0] + [t] && tr2 == tr + Exits(s[0..]) + [Entry(t)]
    ensures s2 == [t] && tr2 == tr + [Exit(s[1]), Exit(s[0]), Entry(t)]
  {
    assert s[0..] == [s[0], s[1]];
    ExitsTwo(s[0], s[1]);
  }

  /** The stack and log after a request at level 1 of a two-deep stack for a state without a default child. */
  lemma InnerShape(s: seq<StateId>, t: StateId, tr: seq<Event>, tr1: seq<Event>, s2: seq<StateId>, tr2: seq<Event>)
    requires |s| == 2 && tr1 == tr + [Steady(s[1], Some(t))]
    requires s2 == s[..1] + [t] && tr2 == tr1 + [Exit(s[1]), Entry(t)]
    ensures s2 == [s[0], t] && tr2 == tr + [Steady(s[1], Some(t)), Exit(s[1]), Entry(t)]
  {
    assert s[..1] == [s[0]];
  }

  /** Log extensions in a row, as one. */
  lemma TraceSeven(t: seq<Event>, a: Event, b: Event, c: Event, x: Event, y: Event, z: Event, w: Event, t1: seq<Event>, t2: seq<Event>)
    requires t1 == t + [a] && t2 == t1 + [b, c, x] + [y, z, w]
    ensures t2 == t + [a, b, c, x, y, z, w]
  {
  }

  /** Log extensions in a row, as one. */
  lemma TraceFive(t: seq<Event>, a: Event, b: Event, c: Event, x: Event, y: Event, t1: seq<Event>, t2: seq<Event>)
    requires t1 == t + [a] && t2 == t1 + [b, c, x] + [y]
    ensures t2 == t + [a, b, c, x, y]
  {
  }
}

=== FILE: state_chart.dfy ===
/**
  The static state chart definition and its consistency check
  (`InconsistentStateChart` and `StateChartEngine.check`).
 */
module StateChart {
  import opened Common
  import opened FiniteState

  /** One entry of the chart: optional `parent`, optional `defaultChild`, and the state class. */
  datatype StateInfo<!P, !D> = StateInfo(parent: Option<StateId>, defaultChild: Option<StateId>, stateClass: StateClass<P, D>)

  /** A Python dict from state id to entry, with its keys in insertion order. */
  datatype RawChart<!P, !D> = RawChart(order: seq<StateId>, info: map<StateId, StateInfo<P, D>>)

  ghost predicate IsDict<P, D>(c: RawChart<P, D>) {
    && NoDup(c.order)
    && forall k :: k in c.info <==> k in c.order
  }

  type Chart<!P, !D> = c: RawChart<P, D> | IsDict(c) witness RawChart([], map[])

  /** `k` names a `parent` that is not a key of the chart. */
  predicate ParentDangles<P, D>(c: Chart<P, D>, k: StateId) {
    k in c.info && c.info[k].parent.Some? && c.info[k].parent.value !in c.info
  }

  /** `k` names a `defaultChild` that is not a key, or whose own `parent` is not `k`. */
  predicate DefaultFaulty<P, D>(c: Chart<P, D>, k: StateId) {
    && k in c.info
    && c.info[k].defaultChild.Some?
    && var ch := c.info[k].defaultChild.value;
       ch !in c.info || c.info[ch].parent != Some(k)
  }

  /** Every `parent` exists, and every `defaultChild` exists and names its referrer as parent. */
  ghost predicate IsConsistent<P, D>(c: Chart<P, D>) {
    forall k :: k in c.info ==> !ParentDangles(c, k) && !DefaultFaulty(c, k)
  }

  ghost predicate AnyParentDangles<P, D>(c: Chart<P, D>) {
    exists k :: k in c.info && ParentDangles(c, k)
  }

  /**
    The outcome of `check`: it returns normally, raises
    `InconsistentStateChart(parent, child)`, or raises `KeyError` because the
    default child `child` has no `parent` entry at all.
   */
  datatype CheckResult = Passed | Inconsistent(parent: StateId, child: StateId) | MissingParentKey(child: StateId)

  /**
    `check`: first every state's `parent` is looked up, in dict order; then every
    state's `defaultChild` is looked up and must name the referrer as its parent,
    again in dict order. The first violation found is reported.
   */
  function Check<P, D>(c: Chart<P, D>): (r: CheckResult)
    ensures r.Passed? <==> IsConsistent(c)
    ensures AnyParentDangles(c) ==>
      && r.Inconsistent?
      && (exists i :: FirstAt(c.order, k => ParentDangles(c, k), i) && r.child == c.order[i])
      && r.child in c.info && c.info[r.child].parent == Some(r.parent)
    ensures !AnyParentDangles(c) && r.Inconsistent? ==>
      && (exists i :: FirstAt(c.order, k => DefaultFaulty(c, k), i) && r.parent == c.order[i])
      && r.parent in c.info && c.info[r.parent].defaultChild == Some(r.child)
      && (r.child !in c.info || c.info[r.child].parent.Some?)
    ensures r.MissingParentKey? ==>
      && !AnyParentDangles(c)
      && (exists i :: FirstAt(c.order, k => DefaultFaulty(c, k), i) && c.info[c.order[i]].defaultChild == Some(r.child))
      && r.child in c.info && c.info[r.child].parent.None?
  {
    match FirstIndex(c.order, k => ParentDangles(c, k), 0)
    case Some(i) =>
      assert FirstAt(c.order, k => ParentDangles(c, k), i);
      Inconsistent(c.info[c.order[i]].parent.value, c.order[i])
    case None =>
      assert !AnyParentDangles(c) by {
        forall k | k in c.info ensures !ParentDangles(c, k) {
          assert k in c.order;
        }
      }
      match FirstIndex(c.order, k => DefaultFaulty(c, k), 0)
      case Some(i) =>
        assert FirstAt(c.order, k => DefaultFaulty(c, k), i);
        var p := c.order[i];
        var ch := c.info[p].defaultChild.value;
        if ch in c.info && c.info[ch].parent.None? then MissingParentKey(ch) else Inconsistent(p, ch)
      case None =>
        assert IsConsistent(c) by {
          forall k | k in c.info ensures !DefaultFaulty(c, k) {
            assert k in c.order;
          }
        }
        Passed
  }
}
